=== FILE: README.md ===
# Coin-Bounce backend: a Dafny model of its sessions, validators and blog store

This project models the core of the Coin-Bounce blog backend, an Express
application over MongoDB. It covers five parts:

- the session state machine: `register`, `login`, `logout` and `refresh`
  over the `users` and `tokens` collections;
- the `auth` guard in front of the protected routes;
- the token service: sign and verify access and refresh tokens, and store
  a refresh record;
- the error mapper, which turns an error passed to `next` into a status
  code and a message;
- the blog and comment handlers: create, list, update and cascade delete.

Every handler is a pure function, or a method with a loop. It takes a
state, a request and an environment `Http.Env`, and returns the new state
and an `Http.Outcome`. An outcome is one of three things:

- `Reply`: the handler responds;
- `Forward`: the handler calls `next(err)`, so the error mapper responds;
- `Unhandled`: an exception escapes the async handler. Express before
  version 5 does not catch a rejected handler promise, so no response is
  sent. Under Node's default since version 15, an unhandled rejection also
  ends the process. Which versions are deployed is not part of this model.

The environment holds everything the handlers get from outside:

- the clock (`Date.now()` in milliseconds);
- the `_id` the store gives a saved document;
- the bcrypt salt;
- which store calls throw, and with what error;
- how the store reads a filter whose value is `undefined`
  (`Seqs.UndefinedMatch`). Mongoose's documentation says that
  `findOne({ _id: undefined })` is equivalent to `findOne({})`, which here
  matches the first document in natural order (`MatchAll`). The other reading, `MatchNone`, matches
  nothing. Both are modelled, and the properties that depend on the choice
  are proved for each.

Collections are sequences in natural order. `findOne`, `updateOne` and
`deleteOne` act on the first document that matches. A filter's ObjectId string is cast
before matching, so the case of its hexadecimal letters does not matter.

Some things are modelled symbolically:

- Tokens are symbolic: a token records the secret it was signed with, its
  payload, and its `iat` and `exp` claims. Expiry is the `exp` claim of
  section 4.1.4 of RFC 7519, checked against the explicit clock.
- Password hashes are symbolic too: `Bcrypt(plain, salt)`, with
  `ComparePassword` accepting exactly the hashed password.

The source's quirks are modelled as written and proved as properties:

- the refresh liveness check is never awaited;
- login signs its refresh token over `id`, while refresh reads `_id`, so
  refreshing with login's token either finds no user or acts on the first
  stored user and record;
- the guard looks the user up by the whole decoded payload;
- a verification error has no status, so it is answered with 500;
- register saves the user before storing the refresh record, so a failure
  there escapes with the user already saved.

Modules:

- `Wrappers`, `Seqs` and `Text`: shared helpers. `Seqs.FirstMatch` is how
  a filter on one field selects a document, including an undefined filter
  value. `Text` covers JavaScript string semantics: UTF-16 length, `split`,
  and decimal rendering.
- `Errors`: the error mapper.
- `Models` and `UserDto`: the records and the user projection.
- `Validators`: the Joi schemas and the two regular expressions.
- `Jwt`: the token service.
- `TokenStore`: the refresh-record collection.
- `Http`: the environment and outcomes.
- `AuthController` and `AuthGuard`: the session handlers and the guard.
- `SessionProperties`: properties that span several handlers.
- `BlogController` and `CommentController`: the blog and comment handlers.

## Model

| member | source | states |
|---|---|---|
| Errors.HandleError | backend/middlewares/errorHandler.js:15-38 | A truthy `error.status` sets the status. Otherwise a Joi validation error gets 401 and any other error 500. A truthy `error.message` sets the message. Otherwise a validation error keeps its own message and any other error gets "Internal Server Error". |
| Errors.BareErrorIsInternal | backend/middlewares/errorHandler.js:15-18 | An error with neither status nor message is answered with 500 "Internal Server Error". |
| Errors.ValidationErrorIs401 | backend/middlewares/errorHandler.js:21-25 | A schema validation error is answered with 401 and its own message. |
| UserDto.FromUser | backend/dto/user.js:1-9 | The DTO's id, username and name are the user's `_id`, username and name. |
| UserDto.DtoDeterminedByPublicFields | backend/dto/user.js:2-6 | Two users have equal DTOs exactly when they agree on id, username and name. So the DTO reveals nothing of email or password. |
| Models.ComparePassword | backend/controllers/authController.js:188 | `bcrypt.compare` accepts a password exactly when the hash is that password hashed with the hash's own salt. |
| Models.HashPassword | backend/controllers/authController.js:88 | The stored hash compares equal to the password it was made from and to no other password. |
| Validators.PasswordPattern | backend/controllers/authController.js:14 | A string the password regex accepts has 8–30 characters, all ASCII letters or digits. |
| Validators.PasswordPatternMeaning | backend/controllers/authController.js:14 | The password regex, read with its lookaheads and UTF-16 length bounds, accepts exactly the strings of 8–30 ASCII letters and digits with at least one digit, one lower-case and one upper-case letter. |
| Validators.LookaheadOnAlnum | backend/controllers/authController.js:14 | On a string of letters and digits, a lookahead `(?=.*k)` succeeds exactly when some character is of class k. |
| Validators.IsObjectId | backend/controllers/blogController.js:9 | A string the ObjectId pattern accepts is 24 code units long and contains no `/`. |
| Validators.RenderedIdsAccepted | backend/controllers/blogController.js:9 | The pattern accepts the 24-digit hexadecimal rendering of every 12-byte ObjectId, and the rendering reads back as the same bytes. |
| Validators.AcceptedIdsAreRenderings | backend/controllers/blogController.js:9 | Every string the pattern accepts reads as 12 bytes whose rendering is the string with its letters lower-cased. |
| Validators.ObjectIdsUpToCase | backend/controllers/blogController.js:9 | A string passes the pattern exactly when, once lower-cased, it is the rendering of some 12 bytes. So the pattern admits the ObjectIds in any letter case, and nothing else. |
| Validators.HexRoundTrip | backend/controllers/blogController.js:9 | Reading back the hexadecimal rendering of any bytes gives those bytes. |
| Validators.HexCanonical | backend/controllers/blogController.js:9 | Rendering the bytes read from any string of hexadecimal digit pairs gives that string lower-cased. |
| Validators.RenderingIsLowerCase | backend/controllers/blogController.js:9 | A rendered ObjectId is unchanged by lower-casing. |
| Validators.SameIdIsObjectIdEquality | backend/controllers/blogController.js:193 | For a string the pattern accepts, matching it against a stored id (`Models.SameId`) is the same as reading it as the stored id's 12 bytes. So the model matches ids as the store does, as ObjectIds. |
| Validators.RegisterSchemaError | backend/controllers/authController.js:32-41 | The registration schema passes exactly when all of these hold: the username has 5–30 code units, the name at most 30, the email is an address, the password matches the pattern, and any confirmation equals the password. A failure names the first failing key in schema order: each key is named exactly when it fails and every key before it passes. |
| Validators.LoginSchemaError | backend/controllers/authController.js:149-154 | The login schema passes exactly when the username has 5–30 code units and the password matches the pattern. |
| Validators.RegisteredCredentialsPassLogin | backend/controllers/authController.js:149-152 | Every username and password that registration accepts also passes the login schema. |
| Jwt.Sign | backend/services/JWTService.js:15-22 | A signed token carries the secret, the payload, `iat` equal to the clock in seconds, and `exp` equal to `iat` plus the lifetime. |
| Jwt.SignAccessToken | backend/services/JWTService.js:15-17 | An access token is signed with the access secret. |
| Jwt.SignRefreshToken | backend/services/JWTService.js:20-22 | A refresh token is signed with the refresh secret. |
| Jwt.Verify | backend/services/JWTService.js:25-32 | Verification succeeds exactly for a present token signed with this secret whose `exp` is still ahead of the clock, and then returns its payload and claims. An absent token fails with "must be provided", another secret with "invalid signature", and an elapsed `exp` with "expired". |
| Jwt.VerifyAccessToken | backend/services/JWTService.js:25-27 | An access verification succeeds only for a token signed with the access secret. |
| Jwt.VerifyRefreshToken | backend/services/JWTService.js:30-32 | A refresh verification succeeds only for a token signed with the refresh secret. |
| Jwt.JwtErrorDesc | backend/services/JWTService.js:26 | Every verification error carries a message and no status. |
| Jwt.AccessRoundTrip | backend/services/JWTService.js:15-27 | While unexpired, a freshly signed access token verifies to exactly the payload it was signed over. |
| Jwt.RefreshRoundTrip | backend/services/JWTService.js:20-32 | While unexpired, a freshly signed refresh token verifies to exactly the payload it was signed over. |
| Jwt.TokenClassesSeparated | backend/services/JWTService.js:15-32 | The two secrets differ exactly when an access token fails refresh verification with "invalid signature". The same holds the other way round. |
| Jwt.ElapsedTokenExpires | backend/services/JWTService.js:25-32 | Once its lifetime has elapsed, a token fails with "jwt expired". |
| TokenStore.StoreRefreshToken | backend/services/JWTService.js:35-47 | A store error is rethrown unchanged. On success exactly one record `{token, userid}` is appended, existing records are unchanged, and `_id`s stay unique. |
| TokenStore.Upsert | backend/controllers/authController.js:210-214 | Afterwards a record keyed by the user's `_id` holds the new token, and with unique keys it is the only one. It is inserted when absent. Every record with another key is unchanged. |
| TokenStore.UpdateByKey | backend/controllers/authController.js:316 | Never inserts or removes a record, and keys and owners stay. Only a record with the given `_id` may get the new token, and it does when one exists. An undefined `_id` changes nothing under `MatchNone`; under `MatchAll` it gives the first record the new token. Unique keys stay unique. |
| TokenStore.DeleteOneByToken | backend/controllers/authController.js:253 | When a record carries the token, the first such record is removed. Otherwise nothing changes. An undefined token removes nothing under `MatchNone` and the first record under `MatchAll`. |
| TokenStore.SameKeysStayUnique | backend/models/token.js:5-10 | Rewriting a record's token or owner keeps the collection's `_id`s unique. |
| TokenStore.AppendFreshKeyStaysUnique | backend/models/token.js:5-10 | Inserting a record under a new `_id` keeps `_id`s unique. |
| Seqs.FirstIndex | backend/controllers/authController.js:168 | `findOne` acts on the first document matching the filter, and finds none exactly when no document matches. |
| Seqs.FirstMatch | backend/controllers/authController.js:332 | A filter `{ field: v }` with a defined `v` selects the first document whose field is `v`, and none exactly when there is no such document. An undefined `v` selects nothing under `MatchNone` and the first document under `MatchAll`. |
| AuthController.FindByUsername | backend/controllers/authController.js:168 | Finds a user with that username exactly when one exists. |
| AuthController.FindById | backend/controllers/authController.js:332 | Finds a stored user with the given `_id` exactly when one exists. An undefined id finds nobody under `MatchNone`, and the first stored user under `MatchAll`. |
| AuthController.AppendFreshUserStaysWf | backend/controllers/authController.js:96-104 | Adding a user whose id, username and email are all unused keeps each of them unique. |
| AuthController.Register | backend/controllers/authController.js:29-134 | A schema failure is forwarded with both stores untouched. The three conflicts each give their 409 message and create nothing. The request succeeds exactly when validation passes, username and email are free, and both saves work. Success adds one user holding the password's hash and one refresh record for that user, and replies 201 with the DTO and a token pair over `_id`. A failed record store escapes after the user is saved. When validation, the lookups and the user save pass but the record store fails, the handler escapes with exactly that user appended and no record stored. Uniqueness of ids, usernames, emails and record keys is preserved. |
| AuthController.Login | backend/controllers/authController.js:138-237 | Users never change, and a failure changes nothing. An unknown username gives 401 "Invalid Username"; a wrong password gives 401 " Invalid Password ". Login replies exactly when the schema passes, the lookup works, the user exists, the password compares equal, and the upsert works. Success replies 200 with the DTO. The refresh token's payload is `{id}`, not `{_id}`. A record keyed by the user's id holds it, and every other record is unchanged. |
| AuthController.Logout | backend/controllers/authController.js:241-264 | Unless the delete throws, the reply is 200 `{user: null, auth: false}` with both cookies cleared. At most one record is removed: one carrying the cookie's token, or, without the cookie and under `MatchAll`, the first record. When no record matches, or the cookie is missing under `MatchNone`, nothing changes. |
| AuthController.Refresh | backend/controllers/authController.js:268-339 | A token that fails verification gives 401 'Unauthorized' with the store untouched. Refresh never inserts or removes a record. Only the record keyed by the verified token's `_id` may change; for an undefined `_id` under `MatchAll`, only the first record. A refresh replies exactly when the token verifies, neither store call fails, and the token's `_id` finds a user. A reply is 200 with the DTO of the user with that `_id` and a new pair over it. The user lookup comes after the update and outside any `try`, so a missing user escapes the handler with the record already updated. |
| SessionProperties.RegisterThenLogin | backend/controllers/authController.js:88-236 | After a successful registration, logging in with the same username and password succeeds with the same user body. |
| SessionProperties.RefreshIgnoresRecords | backend/controllers/authController.js:295-307 | The refresh outcome does not depend on the stored records: the un-awaited liveness lookup never rejects. |
| SessionProperties.UnrecordedTokenRefreshes | backend/controllers/authController.js:296-304 | A verified refresh token that no record holds is still honoured with 200. |
| SessionProperties.LogoutDoesNotRevoke | backend/controllers/authController.js:253 | Refreshing after logout has exactly the outcome it had before logout. |
| SessionProperties.RefreshedLoginAccessTokenRejected | backend/controllers/authController.js:286-338 | Under `MatchAll`, refreshing with login's token succeeds, but the guard rejects the access token it issues: that payload has no `_id`, so the lookup throws a CastError and the route answers 500. |
| SessionProperties.RefreshTokenReusable | backend/controllers/authController.js:311-338 | A refresh does not consume its token: while the token is unexpired, a second refresh with it against the same store succeeds too. |
| SessionProperties.LoginRefreshTokenUnusable | backend/controllers/authController.js:286 | Login's refresh token carries `id`, so its `_id` is undefined. Under `MatchNone`, refreshing with it updates nothing, finds no user and throws. No response is sent and the state is unchanged. |
| SessionProperties.LoginRefreshTokenSelectsFirstUser | backend/controllers/authController.js:286-338 | Under `MatchAll`, refreshing with login's token replies 200 with the DTO of the first stored user, whoever logged in. It overwrites the first refresh record's token and issues a pair whose payload names nobody. |
| AuthGuard.LookupByClaims | backend/middlewares/auth.js:45-48 | The filter value is the whole decoded payload. A payload the store cannot cast to an `_id` (one without `_id`) throws a CastError before any user is read. Otherwise the user with the cast `_id` is found exactly when one exists. |
| AuthGuard.Guard | backend/middlewares/auth.js:6-62 | A missing cookie gives 401 'Unauthorized'. A failed access-token verification forwards the verifier's own error. A payload that cannot be cast to an `_id` forwards the store's CastError. A failed lookup forwards its error. A verified token whose lookup finds a user continues with that user's DTO as `req.user`, and continuing happens only that way. A lookup that yields no user forwards the DTO constructor's TypeError. |
| AuthGuard.RefreshCookieNeverVerified | backend/middlewares/auth.js:21-36 | Any two present refresh cookies give the same guard result: that cookie is only checked for presence. |
| AuthGuard.VerificationFailureIs500 | backend/middlewares/auth.js:35-40 | An access token that fails verification reaches the client as a 500 carrying the verifier's message. |
| AuthGuard.ExpiredAccessTokenIs500 | backend/middlewares/auth.js:35-40 | An expired access token is answered with 500 "jwt expired", and no refresh is attempted. |
| AuthGuard.UncastablePayloadIs500 | backend/middlewares/auth.js:45-48 | A verified access token whose payload cannot be cast to an `_id` is answered with 500 and the cast error's message, whatever users are stored. |
| AuthGuard.MissingCookieIs401 | backend/middlewares/auth.js:24-30 | A missing or empty cookie is answered with 401 'Unauthorized'. |
| Text.Utf16Length | backend/controllers/authController.js:33-34 | The JavaScript length lies between the number of characters and twice that. It equals the number of characters when all of them lie in the Basic Multilingual Plane. One character counts one code unit, or two outside that plane. |
| Text.Utf16LengthAppend | backend/controllers/authController.js:33-34 | Lengths add up over concatenation, so a string's length is the sum of its characters' code units. |
| Text.Split | backend/controllers/blogController.js:207 | `split('/')` yields one more piece than there are separators, and no piece contains one. |
| Text.SplitJoin | backend/controllers/blogController.js:207 | Joining the pieces with the separator gives back the original string. |
| Text.LastSegment | backend/controllers/blogController.js:207 | `split('/').at(-1)` is the suffix of the path after its last `/`, and the whole path when there is none. |
| Text.LastPieceIsSuffix | backend/controllers/blogController.js:207 | The last piece of any split is a suffix of the string. |
| Text.LastSegmentOfPath | backend/controllers/blogController.js:207 | The last `/`-segment of `dir + "/" + name` is `name` whenever `name` has no `/`. |
| Text.Decimal | backend/controllers/blogController.js:63 | A rendered timestamp is a non-empty string of decimal digits with no leading zero. |
| Text.DecimalRoundTrip | backend/controllers/blogController.js:63 | Reading the rendered digits back gives the timestamp. |
| Seqs.Filter | backend/controllers/commentController.js:51 | `find(filter)` returns only matching documents, every one of them, and no more than the store holds. |
| Seqs.FilterAppend | backend/controllers/commentController.js:51 | Filtering commutes with concatenation, so matches keep store order. |
| Models.CommentsOf | backend/controllers/commentController.js:51 | Exactly the comments whose `blog` names the id, in either letter case. |
| Models.WithoutBlog | backend/controllers/blogController.js:270 | `deleteMany({blog: id})` keeps exactly the comments of other blogs. |
| Models.CommentsOfAppend | backend/controllers/commentController.js:28 | A new comment joins the end of its own blog's comments and no other blog's. |
| Models.CommentsPartition | backend/controllers/blogController.js:269-270 | Every comment is either among the blog's comments or among those the deletion keeps, never both. |
| Models.CommentsOfIgnoresCase | backend/controllers/commentController.js:51 | The id in `find({blog: id})` is cast before matching, so an id lists the same comments as its lower-cased form. |
| BlogController.StripDataUriPrefix | backend/controllers/blogController.js:51-56 | A photo without a png/jpg/jpeg base64 data-URL prefix is left unchanged. A photo with one is exactly that prefix followed by the result. |
| BlogController.StripRoundTrip | backend/controllers/blogController.js:219-220 | Stripping any of the three prefixes from prefix + data gives back the data, even when the data starts with a prefix itself. |
| BlogController.ImageName | backend/controllers/blogController.js:63 | The image name starts with the timestamp's digits. It contains no `/` when the author id has none. |
| BlogController.PhotoPathRecoversImageName | backend/controllers/blogController.js:80 | For every author id the schema admits, the last `/`-segment of the stored photo path is the image file's name. |
| BlogController.FindBlogById | backend/controllers/blogController.js:193 | Finds a stored blog with the ObjectId the given id denotes, in either letter case, exactly when one exists. |
| BlogController.FindBlogIgnoresCase | backend/controllers/blogController.js:193 | An id finds the same blog as its lower-cased form. |
| BlogController.CreateSchemaError | backend/controllers/blogController.js:26-33 | The create schema passes exactly when title, content and photo are non-empty and author is an ObjectId. |
| BlogController.UpdateSchemaError | backend/controllers/blogController.js:172-181 | The update schema passes exactly when title and content are non-empty, author and blogId are ObjectIds, and a given photo is non-empty. |
| BlogController.CreateBlog | backend/controllers/blogController.js:15-93 | A schema failure is forwarded with nothing written. Creation succeeds exactly when validation passes, the save works and the new `_id` is unused. It then appends one blog holding the title, content and author, with photo path `<server path>/storage/<timestamp>-<author>.png`, and replies 201 with its view. The file written is the one that path names, holding the stripped data. Blog ids stay unique. |
| BlogController.GetAll | backend/controllers/blogController.js:97-120 | The reply holds one view per stored blog, with the same length and order. A failed query is forwarded. |
| BlogController.UpdateOneBlog | backend/controllers/blogController.js:235-240 | Only the first blog with the id, in either letter case, changes: its title and content, and its photo path when a new one is given. Ids, authors and all other blogs stay. |
| BlogController.UpdateBlog | backend/controllers/blogController.js:161-244 | The update succeeds exactly when validation, the lookup and the update work, and, when a photo is given, the blog exists. On success the blog with the id carries the new title and content. Without a photo, no file is touched and no photo path changes. With a photo, the old photo path's file is removed and the new one written, and the stored path is `<server path>/storage/<timestamp>-<author>.png`, naming the new file. Other blogs are unchanged. A photo for a missing blog, or a failed update, escapes the handler. |
| BlogController.DeleteOneBlog | backend/controllers/blogController.js:269 | Removes the first blog with the id, in either letter case, or nothing when there is none. Every other blog remains, and with unique ids none with that id is left. |
| BlogController.DeleteBlog | backend/controllers/blogController.js:248-277 | The schema result is ignored, so an id that is not an ObjectId reaches the store and its CastError is forwarded, changing nothing. Otherwise, on success the blog is gone, none of its comments remain, and the remaining comments are exactly the other blogs' comments in store order. When the comment deletion fails, the blog is gone but its comments stay. |
| BlogController.UpdateRemovesCreatedImage | backend/controllers/blogController.js:205-211 | After a successful creation, updating that blog with a valid new photo, under its id in either letter case, succeeds. The first file it removes is exactly the one the creation wrote. |
| CommentController.CommentSchemaError | backend/controllers/commentController.js:11-20 | The comment schema passes exactly when content is non-empty and author and blog are ObjectIds. |
| CommentController.CreateComment | backend/controllers/commentController.js:9-35 | A schema or save failure is forwarded with the store unchanged. Success appends exactly `{content, author, blog}` and replies 201 'Comment Created'. |
| CommentController.CreatedCommentIsListed | backend/controllers/commentController.js:24-33 | A created comment is listed last among its blog's comments. |
| CommentController.ViewsOf | backend/controllers/commentController.js:51-61 | The query's filter and the loop over its result, as one loop: one view per comment of the blog, in store order. |
| CommentController.ViewsAreTheBlogsComments | backend/controllers/commentController.js:51-62 | Every view is of a stored comment of the blog, and every such comment has a view. |
| CommentController.GetById | backend/controllers/commentController.js:37-64 | An id failing the ObjectId pattern is forwarded before any query. Otherwise the reply is 200 with views of exactly the blog's comments, in store order. |

## Left out

- Cryptography: bcrypt's cost factor and hash format, and jsonwebtoken's encoding and signatures. Hashes and tokens are symbolic. A token that is no token counts as malformed, and any other token is one the service signed.
- Joi's `email()` grammar is the parameter `isEmail`. Joi's rejection of unknown keys is not modelled.
- Joi's message text: a validation error's message is the quoted label of the failing key, not Joi's full sentence.
- Mongoose casting is modelled only for ObjectId filter values on blogs and comments. A 24-hex-digit id matches a stored id in either letter case (`Models.SameId`), and `deleteBlog`, the one handler that queries with an unvalidated id, forwards the CastError of any other string. A 12-character string, which some driver versions accept as raw ObjectId bytes, is treated like any other non-ObjectId string. Lookups of users and refresh records by a token's `_id` compare ids exactly. The guard filters by the whole decoded payload, and how the store casts it is the parameter `cast`. A payload without `_id` raises a CastError. That error's message renders the payload as a fixed placeholder, because its rendering of objects is not modelled.
- Which reading of an undefined filter value the deployed Mongoose version uses is not fixed: it is the parameter `Env.undefinedMatch`, and properties that depend on it are stated for each reading.
- File-system I/O: `writeFileSync` and `unlinkSync` are recorded as effects and assumed to succeed. `existsSync` is assumed true, so the branch at blogController.js line 213, which calls `next` with a null error, is not modelled.
- `Buffer.from(…, 'base64')` decoding: the stripped base64 text stands for the bytes written.
- Blog `getById` (blogController.js lines 124-157) is not modelled. It needs `populate` and the blog-details DTO, and neither is part of this model. BlogDTO and CommentDTO are opaque views built from one record.
- The double response in errorHandler.js, where a validation error is answered at lines 24 and again at 38: only the status and message the mapper computes are modelled.
- HTTP wiring: routes, server start-up, the database connection and cookie options. Cookies are modelled only as the pair of values set or cleared.
- Missing secret configuration is not modelled; both secrets are given values.
- Concurrency: interleaved requests on the same record are not modelled; each handler is one atomic step.
- `console.log` calls are not modelled.
- Users are a sequence rather than a map from id, so that "the first match" is deterministic. Uniqueness of ids is the invariant `AuthController.Wf`.

=== FILE: AuthController.dfy ===
/** Registration, login, logout and token refresh, each a transition of the
    user and refresh-token stores ending in an outcome. */
module AuthController {
  import opened Wrappers
  import opened Seqs
  import opened Models
  import opened Errors
  import opened UserDto
  import opened Validators
  import opened Jwt
  import opened TokenStore
  import opened Http

  /** The `users` collection and the `tokens` collection, in natural order. */
  datatype AuthState = AuthState(users: seq<User>, tokens: seq<TokenRecord>)

  datatype RegisterBody = RegisterBody(username: Option<string>, name: Option<string>, email: Option<string>,
                                       password: Option<string>, confirmPassword: Option<string>)

  datatype LoginBody = LoginBody(username: Option<string>, password: Option<string>)

  datatype Step = Step(state: AuthState, outcome: Outcome)

  const UsernameAndEmailTaken := Plain(409, "Username & Email address already registered , please choose another username and email!")
  const EmailTaken := Plain(409, "Email already exists , please choose another email!")
  const UsernameTaken := Plain(409, "Username already exists , please choose another username!")
  const InvalidUsername := Plain(401, "Invalid Username")
  const InvalidPassword := Plain(401, " Invalid Password ")

  predicate UsernameInUse(users: seq<User>, username: string)
  {
    exists i :: 0 <= i < |users| && users[i].username == username
  }

  predicate EmailInUse(users: seq<User>, email: string)
  {
    exists i :: 0 <= i < |users| && users[i].email == email
  }

  predicate IdInUse(users: seq<User>, id: Id)
  {
    exists i :: 0 <= i < |users| && users[i].id == id
  }

  /** `User.findOne({ username })`: the first user with that username. */
  function FindByUsername(users: seq<User>, username: string): (r: Option<User>)
    ensures r.Some? ==> r.value in users && r.value.username == username
    ensures r.None? <==> !UsernameInUse(users, username)
  {
    match FirstIndex(users, (u: User) => u.username == username)
    case None => None
    case Some(i) => Some(users[i])
  }

  /** `User.findOne({ _id: id })`: the user with that id; an undefined id
      matches as `u` says, no user or the first one. */
  function FindById(users: seq<User>, id: Option<Id>, u: UndefinedMatch): (r: Option<User>)
    ensures r.Some? ==> r.value in users
    ensures id.Some? ==> (r.Some? ==> r.value.id == id.value) && (r.None? <==> !IdInUse(users, id.value))
    ensures id.None? ==> (r.None? <==> u.MatchNone? || |users| == 0)
    ensures id.None? && r.Some? ==> r.value == users[0]
  {
    match FirstMatch(users, id, UserId, u)
    case None => None
    case Some(i) => Some(users[i])
  }

  /** Ids, usernames and emails are each unique among users, and `_id`s
      among refresh records. */
  ghost predicate Wf(st: AuthState)
  {
    && Injective(st.users, UserId)
    && Injective(st.users, Username)
    && Injective(st.users, UserEmail)
    && UniqueKeys(st.tokens)
  }

  lemma AppendFreshUserStaysWf(st: AuthState, u: User)
    requires Wf(st)
    requires !IdInUse(st.users, u.id) && !UsernameInUse(st.users, u.username) && !EmailInUse(st.users, u.email)
    ensures Wf(st.(users := st.users + [u]))
  {
    var us := st.users + [u];
    forall a, b | 0 <= a < b < |us|
      ensures UserId(us[a]) != UserId(us[b]) && Username(us[a]) != Username(us[b])
              && UserEmail(us[a]) != UserEmail(us[b])
    {
      if b < |st.users| {
        assert UserId(st.users[a]) != UserId(st.users[b]);
        assert Username(st.users[a]) != Username(st.users[b]);
        assert UserEmail(st.users[a]) != UserEmail(st.users[b]);
      } else {
        assert us[a] == st.users[a];
      }
    }
  }

  function RegisterBodyError(body: RegisterBody, isEmail: string -> bool): Option<string>
  {
    RegisterSchemaError(body.username, body.name, body.email, body.password, body.confirmPassword, isEmail)
  }

  /** The conditions under which registration completes. */
  predicate RegisterAccepted(st: AuthState, body: RegisterBody, isEmail: string -> bool, env: Env)
  {
    && RegisterBodyError(body, isEmail).None?
    && Fault(env, ExistsUsername).None? && Fault(env, ExistsEmail).None?
    && !UsernameInUse(st.users, body.username.value)
    && !EmailInUse(st.users, body.email.value)
    && Fault(env, SaveUser).None? && !IdInUse(st.users, env.newUserId)
    && Fault(env, SaveRefreshRecord).None? && !HasKey(st.tokens, env.newRecordId)
  }

  /** `register`: validate the body; check that neither username nor email is
      taken (both checks run before the three-way conflict decision); store
      the user with the bcrypt hash of the password; sign a token pair over
      `{ _id }`; insert a refresh record; reply 201 with the user's DTO. */
  function Register(k: Secrets, st: AuthState, body: RegisterBody, isEmail: string -> bool, env: Env): (s: Step)
    // A schema failure is forwarded before any store access.
    ensures RegisterBodyError(body, isEmail).Some? ==>
      s == Step(st, Forward(ValidationError(RegisterBodyError(body, isEmail).value)))
    // The three conflicts, once the body is valid and both lookups ran.
    ensures RegisterBodyError(body, isEmail).None? && Fault(env, ExistsUsername).None? && Fault(env, ExistsEmail).None? ==>
      var nameTaken := UsernameInUse(st.users, body.username.value);
      var emailTaken := EmailInUse(st.users, body.email.value);
      && (nameTaken && emailTaken ==> s == Step(st, Forward(UsernameAndEmailTaken)))
      && (emailTaken && !nameTaken ==> s == Step(st, Forward(EmailTaken)))
      && (nameTaken && !emailTaken ==> s == Step(st, Forward(UsernameTaken)))
    // Whatever is forwarded, no user and no record is created.
    ensures s.outcome.Forward? ==> s.state == st
    ensures s.outcome.Reply? <==> RegisterAccepted(st, body, isEmail, env)
    // Success: one new user holding the hash, one new record for it, 201.
    ensures s.outcome.Reply? ==>
      && |s.state.users| == |st.users| + 1
      && s.state.users[..|st.users|] == st.users
      && var u := s.state.users[|st.users|];
      && u.id == env.newUserId && u.username == body.username.value
      && u.name == body.name.value && u.email == body.email.value
      && u.password == HashPassword(body.password.value, env.salt)
      && ComparePassword(body.password.value, u.password)
      && s.outcome.status == 201
      && s.outcome.body == UserBody(Some(FromUser(u)), true)
      && s.outcome.cookies == SetCookies(
           SignAccessToken(k, Payload(Some(u.id), None), AccessLifetime, env.clock),
           SignRefreshToken(k, Payload(Some(u.id), None), RefreshLifetime, env.clock))
      && s.state.tokens == st.tokens + [TokenRecord(env.newRecordId, Signed(s.outcome.cookies.refresh), Some(u.id))]
    // Storing the refresh record is outside any `try`: when it fails, the
    // error escapes the handler with the user already saved.
    ensures RegisterBodyError(body, isEmail).None? && Fault(env, ExistsUsername).None? && Fault(env, ExistsEmail).None?
            && !UsernameInUse(st.users, body.username.value) && !EmailInUse(st.users, body.email.value)
            && Fault(env, SaveUser).None? && !IdInUse(st.users, env.newUserId)
            && (Fault(env, SaveRefreshRecord).Some? || HasKey(st.tokens, env.newRecordId)) ==>
      && s.outcome == Unhandled(if Fault(env, SaveRefreshRecord).Some? then Fault(env, SaveRefreshRecord).value
                                else DuplicateKey)
      && s.state.users == st.users + [User(env.newUserId, body.username.value, body.name.value, body.email.value,
                                           HashPassword(body.password.value, env.salt))]
      && s.state.tokens == st.tokens
    ensures s.outcome.Unhandled? ==>
      && s.state.tokens == st.tokens
      && |s.state.users| == |st.users| + 1 && s.state.users[..|st.users|] == st.users
    ensures Wf(st) ==> Wf(s.state)
  {
    match RegisterBodyError(body, isEmail)
    case Some(key) => Step(st, Forward(ValidationError(key)))
    case None =>
      var username := body.username.value;
      var email := body.email.value;
      if Fault(env, ExistsUsername).Some? then Step(st, Forward(Fault(env, ExistsUsername).value))
      else if Fault(env, ExistsEmail).Some? then Step(st, Forward(Fault(env, ExistsEmail).value))
      else
        var usernameInUse := UsernameInUse(st.users, username);
        var emailInUse := EmailInUse(st.users, email);
        if usernameInUse && emailInUse then Step(st, Forward(UsernameAndEmailTaken))
        else if emailInUse then Step(st, Forward(EmailTaken))
        else if usernameInUse then Step(st, Forward(UsernameTaken))
        else
          var user := User(env.newUserId, username, body.name.value, email,
                           HashPassword(body.password.value, env.salt));
          if Fault(env, SaveUser).Some? then Step(st, Forward(Fault(env, SaveUser).value))
          else if IdInUse(st.users, user.id) then Step(st, Forward(DuplicateKey))
          else
            var users' := st.users + [user];
            assert users'[..|st.users|] == st.users;
            assert Wf(st) ==> Wf(st.(users := users')) by {
              if Wf(st) { AppendFreshUserStaysWf(st, user); }
            }
            var payload := Payload(Some(user.id), None);
            var access := SignAccessToken(k, payload, AccessLifetime, env.clock);
            var refresh := SignRefreshToken(k, payload, RefreshLifetime, env.clock);
            match StoreRefreshToken(st.tokens, Signed(refresh), user.id, env.newRecordId, Fault(env, SaveRefreshRecord))
            case Err(e) => Step(AuthState(users', st.tokens), Unhandled(e))
            case Ok(tokens') =>
              Step(AuthState(users', tokens'), Reply(201, UserBody(Some(FromUser(user)), true), SetCookies(access, refresh)))
  }

  /** `login`: validate the body; find the user by username (401 "Invalid
      Username" if none); compare the password with the stored hash (401
      " Invalid Password " on mismatch); sign an access token over `{ _id }`
      and a refresh token over `{ id }`; upsert the record keyed by the
      user's id; reply 200 with the user's DTO. */
  function Login(k: Secrets, st: AuthState, body: LoginBody, env: Env): (s: Step)
    ensures s.state.users == st.users
    ensures !s.outcome.Reply? ==> s.state == st
    ensures LoginSchemaError(body.username, body.password).Some? ==>
      s == Step(st, Forward(ValidationError(LoginSchemaError(body.username, body.password).value)))
    ensures LoginSchemaError(body.username, body.password).None? && Fault(env, FindUserByUsername).None? ==>
      match FindByUsername(st.users, body.username.value)
      case None => s == Step(st, Forward(InvalidUsername))
      case Some(u) => !ComparePassword(body.password.value, u.password) ==> s == Step(st, Forward(InvalidPassword))
    // Correct credentials succeed unless a store call fails.
    ensures s.outcome.Reply? <==>
      && LoginSchemaError(body.username, body.password).None?
      && Fault(env, FindUserByUsername).None?
      && FindByUsername(st.users, body.username.value).Some?
      && ComparePassword(body.password.value, FindByUsername(st.users, body.username.value).value.password)
      && Fault(env, UpsertRefreshRecord).None?
    ensures s.outcome.Reply? ==>
      && LoginSchemaError(body.username, body.password).None?
      && FindByUsername(st.users, body.username.value).Some?
      && var u := FindByUsername(st.users, body.username.value).value;
      && ComparePassword(body.password.value, u.password)
      && s.outcome.status == 200
      && s.outcome.body == UserBody(Some(FromUser(u)), true)
      && s.outcome.cookies == SetCookies(
           SignAccessToken(k, Payload(Some(u.id), None), AccessLifetime, env.clock),
           SignRefreshToken(k, Payload(None, Some(u.id)), RefreshLifetime, env.clock))
      // A record keyed by the user's id holds the new refresh token; with
      // unique keys it is the only one ...
      && (exists i :: 0 <= i < |s.state.tokens| && s.state.tokens[i].key == u.id
                      && s.state.tokens[i].token == Signed(s.outcome.cookies.refresh))
      && (UniqueKeys(st.tokens) ==> SoleRecordFor(s.state.tokens, u.id, Signed(s.outcome.cookies.refresh)))
      // ... and every other record is untouched.
      && |st.tokens| <= |s.state.tokens| <= |st.tokens| + 1
      && (forall j :: 0 <= j < |st.tokens| && st.tokens[j].key != u.id ==> s.state.tokens[j] == st.tokens[j])
    ensures Wf(st) ==> Wf(s.state)
  {
    match LoginSchemaError(body.username, body.password)
    case Some(key) => Step(st, Forward(ValidationError(key)))
    case None =>
      if Fault(env, FindUserByUsername).Some? then Step(st, Forward(Fault(env, FindUserByUsername).value))
      else match FindByUsername(st.users, body.username.value)
        case None => Step(st, Forward(InvalidUsername))
        case Some(user) =>
          if !ComparePassword(body.password.value, user.password) then Step(st, Forward(InvalidPassword))
          else
            var access := SignAccessToken(k, Payload(Some(user.id), None), AccessLifetime, env.clock);
            var refresh := SignRefreshToken(k, Payload(None, Some(user.id)), RefreshLifetime, env.clock);
            if Fault(env, UpsertRefreshRecord).Some? then Step(st, Forward(Fault(env, UpsertRefreshRecord).value))
            else
              Step(st.(tokens := Upsert(st.tokens, user.id, Signed(refresh))),
                   Reply(200, UserBody(Some(FromUser(user)), true), SetCookies(access, refresh)))
  }

  /** `logout`: delete the first record whose token is the `refreshToken`
      cookie (none matching is not an error); clear both cookies; reply 200
      with `{ user: null, auth: false }`. */
  function Logout(st: AuthState, cookies: Cookies, env: Env): (s: Step)
    ensures s.state.users == st.users
    ensures s.outcome.Reply? <==> Fault(env, DeleteRefreshRecord).None?
    ensures s.outcome.Reply? ==> s.outcome == Reply(200, UserBody(None, false), ClearCookies)
    ensures s.outcome.Forward? ==> s.state == st
    // At most one record goes, and only one carrying the cookie's token.
    ensures |st.tokens| - 1 <= |s.state.tokens| <= |st.tokens|
    ensures s.state.tokens != st.tokens ==>
      exists i :: 0 <= i < |st.tokens| && s.state.tokens == RemoveAt(st.tokens, i)
                  && (Some(st.tokens[i].token) == cookies.refreshToken
                      || (cookies.refreshToken.None? && env.undefinedMatch.MatchAll? && i == 0))
    ensures s.outcome.Reply? && cookies.refreshToken.Some? && HasToken(st.tokens, cookies.refreshToken.value) ==>
      |s.state.tokens| == |st.tokens| - 1
    // Without the cookie the filter is `{ token: undefined }`.
    ensures cookies.refreshToken.None? && env.undefinedMatch.MatchNone? ==> s.state.tokens == st.tokens
    ensures s.outcome.Reply? && cookies.refreshToken.None? && env.undefinedMatch.MatchAll? && |st.tokens| > 0 ==>
      s.state.tokens == RemoveAt(st.tokens, 0)
    ensures Wf(st) ==> Wf(s.state)
  {
    if Fault(env, DeleteRefreshRecord).Some? then Step(st, Forward(Fault(env, DeleteRefreshRecord).value))
    else
      var tokens := DeleteOneByToken(st.tokens, cookies.refreshToken, env.undefinedMatch);
      assert Wf(st) ==> Wf(st.(tokens := tokens));
      Step(st.(tokens := tokens), Reply(200, UserBody(None, false), ClearCookies))
  }

  /** `refresh`: verify the `refreshToken` cookie (401 'Unauthorized' if it
      fails); read `_id` from its payload; the liveness lookup that follows is
      never awaited, so it never rejects; sign a new pair over `{ _id }`;
      update the record keyed by that id without upsert; then look the user
      up outside any `try`, so a missing user makes the DTO constructor throw
      out of the handler. */
  function Refresh(k: Secrets, st: AuthState, cookies: Cookies, env: Env): (s: Step)
    ensures s.state.users == st.users
    ensures VerifyRefreshToken(k, cookies.refreshToken, env.clock).Err? ==> s == Step(st, Forward(Unauthorized))
    // No record is ever inserted or removed, and keys and owners stay.
    ensures |s.state.tokens| == |st.tokens|
    ensures forall j :: 0 <= j < |st.tokens| ==>
      s.state.tokens[j].key == st.tokens[j].key && s.state.tokens[j].userid == st.tokens[j].userid
    // Only the record the verified token's `_id` selects may change: the one
    // with that key, or, for an undefined `_id` the store reads as `{}`, the
    // first record.
    ensures forall j :: 0 <= j < |st.tokens| && s.state.tokens[j] != st.tokens[j] ==>
      && VerifyRefreshToken(k, cookies.refreshToken, env.clock).Ok?
      && var id := VerifyRefreshToken(k, cookies.refreshToken, env.clock).value.payload.mongoId;
      && (id == Some(st.tokens[j].key) || (id.None? && env.undefinedMatch.MatchAll? && j == 0))
      && s.outcome != Forward(Unauthorized)
    ensures s.outcome.Reply? ==>
      && VerifyRefreshToken(k, cookies.refreshToken, env.clock).Ok?
      && var id := VerifyRefreshToken(k, cookies.refreshToken, env.clock).value.payload.mongoId;
      && FindById(st.users, id, env.undefinedMatch).Some?
      && s.outcome.status == 200
      && s.outcome.body == UserBody(Some(FromUser(FindById(st.users, id, env.undefinedMatch).value)), true)
      && s.outcome.cookies == SetCookies(
           SignAccessToken(k, Payload(id, None), AccessLifetime, env.clock),
           SignRefreshToken(k, Payload(id, None), RefreshLifetime, env.clock))
    // A refresh replies exactly when the token verifies, neither store call
    // fails, and the token's `_id` finds a user.
    ensures s.outcome.Reply? <==>
      && VerifyRefreshToken(k, cookies.refreshToken, env.clock).Ok?
      && Fault(env, UpdateRefreshRecord).None? && Fault(env, FindUserById).None?
      && FindById(st.users, VerifyRefreshToken(k, cookies.refreshToken, env.clock).value.payload.mongoId,
                  env.undefinedMatch).Some?
    // The user lookup runs after the update and outside any `try`: a
    // missing user escapes the handler, with the record already updated.
    ensures VerifyRefreshToken(k, cookies.refreshToken, env.clock).Ok?
            && Fault(env, UpdateRefreshRecord).None? && Fault(env, FindUserById).None? ==>
      var id := VerifyRefreshToken(k, cookies.refreshToken, env.clock).value.payload.mongoId;
      && s.state.tokens == UpdateByKey(st.tokens, id,
           Signed(SignRefreshToken(k, Payload(id, None), RefreshLifetime, env.clock)), env.undefinedMatch)
      && (FindById(st.users, id, env.undefinedMatch).None? <==> s.outcome == Unhandled(NullRead("_id")))
    ensures Wf(st) ==> Wf(s.state)
  {
    match VerifyRefreshToken(k, cookies.refreshToken, env.clock)
    case Err(_) => Step(st, Forward(Unauthorized))
    case Ok(claims) =>
      var id := claims.payload.mongoId;
      var access := SignAccessToken(k, Payload(id, None), AccessLifetime, env.clock);
      var refresh := SignRefreshToken(k, Payload(id, None), RefreshLifetime, env.clock);
      if Fault(env, UpdateRefreshRecord).Some? then Step(st, Forward(Fault(env, UpdateRefreshRecord).value))
      else
        var st' := st.(tokens := UpdateByKey(st.tokens, id, Signed(refresh), env.undefinedMatch));
        if Fault(env, FindUserById).Some? then Step(st', Unhandled(Fault(env, FindUserById).value))
        else match FindById(st.users, id, env.undefinedMatch)
          case None => Step(st', Unhandled(NullRead("_id")))
          case Some(user) =>
            Step(st', Reply(200, UserBody(Some(FromUser(user)), true), SetCookies(access, refresh)))
  }
}

=== FILE: AuthGuard.dfy ===
/** The guard in front of protected routes: both cookies must be present,
    the access token must verify, and the user it names is attached to the
    request as a DTO before the route handler runs. */
module AuthGuard {
  import opened Wrappers
  import opened Seqs
  import opened Models
  import opened Errors
  import opened UserDto
  import opened Jwt
  import opened Http
  import opened AuthController

  /** `next(error)`, or `req.user = dto; next()`. */
  datatype GuardResult = Reject(error: ErrorDesc) | Continue(user: UserDTO)

  /** The `CastError` of a query whose `_id` is a payload object without
      its own `_id`. The message shows the object; Node's rendering of it is
      not modelled. */
  const PayloadCastError := CastError("User", "[decoded payload]", "Object")

  /** `User.findOne({ _id: claims })`: the guard uses the whole verified
      claims object as the `_id`. `cast` is how the store turns that object
      into an id: the payload's own `_id` when it has one. A payload it
      cannot cast (`None`: one without `_id`, such as the `{ iat, exp }` a
      refresh signs for login's token) makes the query throw a `CastError`
      before it reaches the store. */
  function LookupByClaims(users: seq<User>, claims: Claims, cast: Claims -> Option<Id>): (r: Result<Option<User>, ErrorDesc>)
    ensures r.Err? <==> cast(claims).None?
    ensures r.Err? ==> r.error == PayloadCastError
    ensures r.Ok? && r.value.Some? ==> r.value.value in users && r.value.value.id == cast(claims).value
    ensures r.Ok? ==> (r.value.None? <==> !IdInUse(users, cast(claims).value))
  {
    match cast(claims)
    case None => Err(PayloadCastError)
    // A defined id: how an undefined one would match does not arise.
    case Some(id) => Ok(FindById(users, Some(id), MatchNone))
  }

  /** `auth`: reject with 401 'Unauthorized' unless both cookies are truthy;
      forward the verifier's own error if the access token fails (the
      refresh cookie is never verified and no refresh is attempted); forward
      a failed lookup, whether the cast or the store throws; a missing user
      makes the DTO constructor throw, and the outer `catch` forwards that;
      otherwise continue with the DTO. */
  function Guard(k: Secrets, users: seq<User>, cookies: Cookies, cast: Claims -> Option<Id>, env: Env): (r: GuardResult)
    ensures !Present(cookies.refreshToken) || !Present(cookies.accessToken) ==> r == Reject(Unauthorized)
    ensures Present(cookies.refreshToken) && Present(cookies.accessToken)
            && VerifyAccessToken(k, cookies.accessToken, env.clock).Err? ==>
      r == Reject(JwtErrorDesc(VerifyAccessToken(k, cookies.accessToken, env.clock).error))
    ensures r.Continue? ==>
      && Present(cookies.refreshToken)
      && VerifyAccessToken(k, cookies.accessToken, env.clock).Ok?
      && Fault(env, GuardFindUser).None?
      && var u := LookupByClaims(users, VerifyAccessToken(k, cookies.accessToken, env.clock).value, cast);
      && u.Ok? && u.value.Some? && r.user == FromUser(u.value.value)
    // A payload the store cannot cast is rejected before any store call.
    ensures Present(cookies.refreshToken) && Present(cookies.accessToken)
            && VerifyAccessToken(k, cookies.accessToken, env.clock).Ok?
            && LookupByClaims(users, VerifyAccessToken(k, cookies.accessToken, env.clock).value, cast).Err? ==>
      r == Reject(PayloadCastError)
    ensures Present(cookies.refreshToken) && VerifyAccessToken(k, cookies.accessToken, env.clock).Ok?
            && Fault(env, GuardFindUser).None?
            && LookupByClaims(users, VerifyAccessToken(k, cookies.accessToken, env.clock).value, cast) == Ok(None) ==>
      r == Reject(NullRead("_id"))
    ensures Present(cookies.refreshToken) && Present(cookies.accessToken)
            && VerifyAccessToken(k, cookies.accessToken, env.clock).Ok?
            && LookupByClaims(users, VerifyAccessToken(k, cookies.accessToken, env.clock).value, cast).Ok?
            && Fault(env, GuardFindUser).Some? ==>
      r == Reject(Fault(env, GuardFindUser).value)
    // A verified token naming a stored user lets the request through.
    ensures Present(cookies.refreshToken) && Present(cookies.accessToken)
            && VerifyAccessToken(k, cookies.accessToken, env.clock).Ok?
            && Fault(env, GuardFindUser).None?
            && LookupByClaims(users, VerifyAccessToken(k, cookies.accessToken, env.clock).value, cast).Ok?
            && LookupByClaims(users, VerifyAccessToken(k, cookies.accessToken, env.clock).value, cast).value.Some? ==>
      r == Continue(FromUser(LookupByClaims(users, VerifyAccessToken(k, cookies.accessToken, env.clock).value, cast).value.value))
  {
    if !Present(cookies.refreshToken) || !Present(cookies.accessToken) then Reject(Unauthorized)
    else match VerifyAccessToken(k, cookies.accessToken, env.clock)
      case Err(e) => Reject(JwtErrorDesc(e))
      case Ok(claims) =>
        match LookupByClaims(users, claims, cast)
        case Err(e) => Reject(e)
        case Ok(found) =>
          if Fault(env, GuardFindUser).Some? then Reject(Fault(env, GuardFindUser).value)
          else match found
            case None => Reject(NullRead("_id"))
            case Some(user) => Continue(FromUser(user))
  }

  /** The refresh cookie is only checked for presence: any two truthy values
      give the same result. */
  lemma RefreshCookieNeverVerified(k: Secrets, users: seq<User>, access: Option<Credential>,
                                   r1: Credential, r2: Credential, cast: Claims -> Option<Id>, env: Env)
    requires Present(Some(r1)) && Present(Some(r2))
    ensures Guard(k, users, Cookies(access, Some(r1)), cast, env) == Guard(k, users, Cookies(access, Some(r2)), cast, env)
  {
  }

  /** A failed access-token verification reaches the error mapper without a
      status, so the client gets 500 with the verifier's message (for
      example "jwt expired"), not 401. */
  lemma VerificationFailureIs500(k: Secrets, users: seq<User>, cookies: Cookies, cast: Claims -> Option<Id>, env: Env)
    requires Present(cookies.refreshToken) && Present(cookies.accessToken)
    requires VerifyAccessToken(k, cookies.accessToken, env.clock).Err?
    ensures Guard(k, users, cookies, cast, env).Reject?
    ensures HandleError(Guard(k, users, cookies, cast, env).error).status == 500
    ensures HandleError(Guard(k, users, cookies, cast, env).error).message
            == JwtErrorDesc(VerifyAccessToken(k, cookies.accessToken, env.clock).error).message
  {
  }

  /** An expired access token is rejected as 500 "jwt expired". */
  lemma ExpiredAccessTokenIs500(k: Secrets, users: seq<User>, cookies: Cookies, cast: Claims -> Option<Id>, env: Env)
    requires Present(cookies.refreshToken)
    requires cookies.accessToken.Some? && cookies.accessToken.value.Signed?
    requires cookies.accessToken.value.token.secret == k.accessSecret
    requires cookies.accessToken.value.token.exp <= Seconds(env.clock)
    ensures HandleError(Guard(k, users, cookies, cast, env).error) == ErrorReply(500, Some("jwt expired"))
  {
  }

  /** A verified access token whose payload the store cannot cast to an id
      is answered with 500 and the cast error's message, whatever the users. */
  lemma UncastablePayloadIs500(k: Secrets, users: seq<User>, cookies: Cookies, cast: Claims -> Option<Id>, env: Env)
    requires Present(cookies.refreshToken) && Present(cookies.accessToken)
    requires VerifyAccessToken(k, cookies.accessToken, env.clock).Ok?
    requires cast(VerifyAccessToken(k, cookies.accessToken, env.clock).value).None?
    ensures Guard(k, users, cookies, cast, env) == Reject(PayloadCastError)
    ensures HandleError(Guard(k, users, cookies, cast, env).error) == ErrorReply(500, PayloadCastError.message)
  {
  }

  /** A missing cookie is a 401 'Unauthorized' from the error mapper. */
  lemma MissingCookieIs401(k: Secrets, users: seq<User>, cookies: Cookies, cast: Claims -> Option<Id>, env: Env)
    requires !Present(cookies.refreshToken) || !Present(cookies.accessToken)
    ensures HandleError(Guard(k, users, cookies, cast, env).error) == ErrorReply(401, Some("Unauthorized"))
  {
  }
}

=== FILE: BlogController.dfy ===
/** The blog handlers: creating a blog with an uploaded image, listing all
    blogs, updating one (optionally replacing its image) and deleting one
    together with its comments. File-system writes are recorded as effects
    rather than performed. */
module BlogController {
  import opened Wrappers
  import opened Seqs
  import opened Text
  import opened Models
  import opened Errors
  import opened Validators
  import opened Http

  datatype BlogState = BlogState(blogs: seq<Blog>, comments: seq<Comment>)

  /** A file the handler writes (base64 text standing for its bytes) or
      removes, relative to the server's working directory. */
  datatype FileEffect = WriteFile(path: string, base64: string) | RemoveFile(path: string)

  datatype BlogStep = BlogStep(state: BlogState, outcome: Outcome, files: seq<FileEffect>)

  datatype CreateBody = CreateBody(title: Option<string>, author: Option<string>,
                                   content: Option<string>, photo: Option<string>)

  datatype UpdateBody = UpdateBody(title: Option<string>, content: Option<string>, author: Option<string>,
                                   blogId: Option<string>, photo: Option<string>)

  /** The three alternatives of `/^data:image\/(png|jpg|jpeg);base64,/`: the
      `data` URL syntax of section 3 of RFC 2397, restricted to these image
      types with the `base64` marker. */
  const PngPrefix := "data:image/png;base64,"
  const JpgPrefix := "data:image/jpg;base64,"
  const JpegPrefix := "data:image/jpeg;base64,"

  predicate HasImagePrefix(s: string)
  {
    StartsWith(s, PngPrefix) || StartsWith(s, JpgPrefix) || StartsWith(s, JpegPrefix)
  }

  /** `photo.replace(base64PrefixPattern, '')`: removes one leading data-URL
      prefix, alternatives tried in the pattern's order. */
  function StripDataUriPrefix(photo: string): (r: string)
    ensures r == photo <==> !HasImagePrefix(photo)
    ensures HasImagePrefix(photo) ==>
      photo == PngPrefix + r || photo == JpgPrefix + r || photo == JpegPrefix + r
  {
    if StartsWith(photo, PngPrefix) then
      assert photo == PngPrefix + photo[|PngPrefix|..];
      photo[|PngPrefix|..]
    else if StartsWith(photo, JpgPrefix) then
      assert photo == JpgPrefix + photo[|JpgPrefix|..];
      photo[|JpgPrefix|..]
    else if StartsWith(photo, JpegPrefix) then
      assert photo == JpegPrefix + photo[|JpegPrefix|..];
      photo[|JpegPrefix|..]
    else photo
  }

  /** Exactly one prefix is removed, whichever of the three it is; the data
      behind it is returned intact even if it starts with another prefix. */
  lemma StripRoundTrip(data: string)
    ensures StripDataUriPrefix(PngPrefix + data) == data
    ensures StripDataUriPrefix(JpgPrefix + data) == data
    ensures StripDataUriPrefix(JpegPrefix + data) == data
  {
    assert (PngPrefix + data)[..|PngPrefix|] == PngPrefix;
    assert (JpgPrefix + data)[..|JpgPrefix|] == JpgPrefix;
    assert (JpegPrefix + data)[11] != PngPrefix[11];
    assert (JpegPrefix + data)[13] != JpgPrefix[13];
    assert (JpegPrefix + data)[..|JpegPrefix|] == JpegPrefix;
  }

  /** `${Date.now()}-${author}.png`. */
  function ImageName(clock: nat, author: string): (name: string)
    ensures '/' !in author ==> '/' !in name
    ensures StartsWith(name, Decimal(clock))
  {
    var name := Decimal(clock) + "-" + author + ".png";
    assert name[..|Decimal(clock)|] == Decimal(clock);
    name
  }

  /** `${BACKEND_SERVER_PATH}/storage/${imagePath}`. */
  function PhotoPath(serverPath: string, imagePath: string): string
  {
    serverPath + "/storage/" + imagePath
  }

  /** `storage/${name}`, where the image file lives. */
  function StorageFile(name: string): string
  {
    "storage/" + name
  }

  /** The file name is recovered from the stored photo path by taking its
      last `/`-segment, for every author id the schemas admit. */
  lemma PhotoPathRecoversImageName(serverPath: string, clock: nat, author: string)
    requires IsObjectId(author)
    ensures LastSegment(PhotoPath(serverPath, ImageName(clock, author))) == ImageName(clock, author)
  {
    var name := ImageName(clock, author);
    assert PhotoPath(serverPath, name) == (serverPath + "/storage") + "/" + name;
    LastSegmentOfPath(serverPath + "/storage", name);
  }

  ghost predicate UniqueBlogIds(st: BlogState)
  {
    Injective(st.blogs, BlogKey)
  }

  /** Whether some stored blog has the ObjectId `id` denotes. */
  predicate BlogIdInUse(blogs: seq<Blog>, id: Id)
  {
    exists i :: 0 <= i < |blogs| && SameId(blogs[i].id, id)
  }

  /** `Blog.findOne({ _id: id })`: the first blog with the ObjectId `id`
      denotes. */
  function FindBlogById(blogs: seq<Blog>, id: Id): (r: Option<Blog>)
    ensures r.Some? ==> r.value in blogs && SameId(r.value.id, id)
    ensures r.None? <==> !BlogIdInUse(blogs, id)
  {
    match FirstIndex(blogs, (b: Blog) => SameId(b.id, id))
    case None => None
    case Some(i) => Some(blogs[i])
  }

  /** The query's letter case does not matter: `findOne({ _id: id })` finds
      the same blog as the query with the id lower-cased. */
  lemma FindBlogIgnoresCase(blogs: seq<Blog>, id: Id)
    ensures FindBlogById(blogs, id) == FindBlogById(blogs, CastId(id))
  {
  }

  function CreateSchemaError(body: CreateBody): (r: Option<string>)
    ensures r.None? <==> RequiredString(body.title) && ObjectIdValid(body.author)
                         && RequiredString(body.content) && RequiredString(body.photo)
  {
    if !RequiredString(body.title) then Some("title")
    else if !ObjectIdValid(body.author) then Some("author")
    else if !RequiredString(body.content) then Some("content")
    else if !RequiredString(body.photo) then Some("photo")
    else None
  }

  function UpdateSchemaError(body: UpdateBody): (r: Option<string>)
    ensures r.None? <==> RequiredString(body.title) && RequiredString(body.content)
                         && ObjectIdValid(body.author) && ObjectIdValid(body.blogId) && OptionalString(body.photo)
  {
    if !RequiredString(body.title) then Some("title")
    else if !RequiredString(body.content) then Some("content")
    else if !ObjectIdValid(body.author) then Some("author")
    else if !ObjectIdValid(body.blogId) then Some("blogId")
    else if !OptionalString(body.photo) then Some("photo")
    else None
  }

  /** `create`: validate; strip the data-URL prefix and write the image as
      `storage/<clock>-<author>.png`; save the blog with the public photo
      path; reply 201 with the blog's DTO. */
  function CreateBlog(serverPath: string, st: BlogState, body: CreateBody, env: Env): (s: BlogStep)
    ensures CreateSchemaError(body).Some? ==> s == BlogStep(st, Forward(ValidationError(CreateSchemaError(body).value)), [])
    ensures s.state.comments == st.comments
    ensures !s.outcome.Reply? ==> s.state == st
    ensures s.outcome.Reply? <==> CreateSchemaError(body).None? && Fault(env, SaveBlog).None?
                                  && !BlogIdInUse(st.blogs, env.newRecordId)
    ensures s.outcome.Reply? ==>
      && |s.state.blogs| == |st.blogs| + 1 && s.state.blogs[..|st.blogs|] == st.blogs
      && var b := s.state.blogs[|st.blogs|];
      && b == Blog(env.newRecordId, body.title.value, body.content.value,
                   PhotoPath(serverPath, ImageName(env.clock, body.author.value)), body.author.value)
      && s.outcome == Reply(201, BlogBody(BlogView(b)), KeepCookies)
      // The file written is the one the stored photo path names.
      && s.files == [WriteFile(StorageFile(LastSegment(b.photoPath)), StripDataUriPrefix(body.photo.value))]
      && LastSegment(b.photoPath) == ImageName(env.clock, body.author.value)
    ensures UniqueBlogIds(st) ==> UniqueBlogIds(s.state)
  {
    match CreateSchemaError(body)
    case Some(key) => BlogStep(st, Forward(ValidationError(key)), [])
    case None =>
      var imagePath := ImageName(env.clock, body.author.value);
      var files := [WriteFile(StorageFile(imagePath), StripDataUriPrefix(body.photo.value))];
      var blog := Blog(env.newRecordId, body.title.value, body.content.value,
                       PhotoPath(serverPath, imagePath), body.author.value);
      if Fault(env, SaveBlog).Some? then BlogStep(st, Forward(Fault(env, SaveBlog).value), files)
      else if BlogIdInUse(st.blogs, blog.id) then BlogStep(st, Forward(DuplicateKey), files)
      else
        PhotoPathRecoversImageName(serverPath, env.clock, body.author.value);
        var blogs' := st.blogs + [blog];
        assert blogs'[..|st.blogs|] == st.blogs;
        assert UniqueBlogIds(st) ==> Injective(blogs', BlogKey) by {
          if UniqueBlogIds(st) {
            forall a, b | 0 <= a < b < |blogs'|
              ensures BlogKey(blogs'[a]) != BlogKey(blogs'[b])
            {
              if b < |st.blogs| { assert BlogKey(st.blogs[a]) != BlogKey(st.blogs[b]); }
              else { assert blogs'[a] == st.blogs[a]; }
            }
          }
        }
        BlogStep(st.(blogs := blogs'), Reply(201, BlogBody(BlogView(blog)), KeepCookies), files)
  }

  /** `getAll`: one DTO per stored blog, built in a loop in store order. */
  method GetAll(st: BlogState, env: Env) returns (o: Outcome)
    ensures Fault(env, FindBlogs).Some? ==> o == Forward(Fault(env, FindBlogs).value)
    ensures Fault(env, FindBlogs).None? ==>
      && o.Reply? && o.status == 200 && o.body.BlogsBody?
      && |o.body.blogs| == |st.blogs|
      && forall i :: 0 <= i < |st.blogs| ==> o.body.blogs[i] == BlogView(st.blogs[i])
  {
    if Fault(env, FindBlogs).Some? {
      return Forward(Fault(env, FindBlogs).value);
    }
    var blogs := st.blogs;
    var views: seq<BlogView> := [];
    var i := 0;
    while i < |blogs|
      invariant 0 <= i <= |blogs|
      invariant |views| == i
      invariant forall j :: 0 <= j < i ==> views[j] == BlogView(blogs[j])
    {
      views := views + [BlogView(blogs[i])];
      i := i + 1;
    }
    return Reply(200, BlogsBody(views), KeepCookies);
  }

  /** The edit `updateOne` applies: title and content, and the photo path
      when a new one is given. */
  function Revise(b: Blog, title: string, content: string, photoPath: Option<string>): Blog
  {
    b.(title := title, content := content,
       photoPath := if photoPath.Some? then photoPath.value else b.photoPath)
  }

  /** `Blog.updateOne({ _id: id }, edit)`: the first blog with that id is
      revised; every other blog is left alone. */
  function UpdateOneBlog(blogs: seq<Blog>, id: Id, title: string, content: string,
                            photoPath: Option<string>): (r: seq<Blog>)
    ensures |r| == |blogs|
    ensures forall j :: 0 <= j < |blogs| ==> r[j].id == blogs[j].id && r[j].author == blogs[j].author
    ensures forall j :: 0 <= j < |blogs| && !SameId(blogs[j].id, id) ==> r[j] == blogs[j]
    ensures forall j :: 0 <= j < |blogs| && r[j] != blogs[j] ==> r[j] == Revise(blogs[j], title, content, photoPath)
    ensures FindBlogById(blogs, id).Some? ==>
      FindBlogById(r, id) == Some(Revise(FindBlogById(blogs, id).value, title, content, photoPath))
  {
    match FirstIndex(blogs, (b: Blog) => SameId(b.id, id))
    case None => blogs
    case Some(i) =>
      var r := blogs[i := Revise(blogs[i], title, content, photoPath)];
      assert FirstIndex(r, (b: Blog) => SameId(b.id, id)) == Some(i) by {
        assert SameId(r[i].id, id);
        assert forall j :: 0 <= j < i ==> r[j] == blogs[j];
      }
      r
  }

  /** `updateBlog`: validate; look the blog up; with a photo, remove the file
      the old photo path names (its last segment), write the new image and
      update title, content and photo path; without one, update title and
      content only. The update runs outside any `try`, and a photo for a
      missing blog reads `photoPath` of `null`; both escape the handler. */
  function UpdateBlog(serverPath: string, st: BlogState, body: UpdateBody, env: Env): (s: BlogStep)
    ensures UpdateSchemaError(body).Some? ==> s == BlogStep(st, Forward(ValidationError(UpdateSchemaError(body).value)), [])
    ensures s.state.comments == st.comments
    ensures !s.outcome.Reply? ==> s.state == st
    ensures s.outcome.Reply? <==>
      && UpdateSchemaError(body).None? && Fault(env, FindBlog).None? && Fault(env, UpdateBlogRecord).None?
      && (body.photo.Some? ==> BlogIdInUse(st.blogs, body.blogId.value))
    ensures s.outcome.Reply? ==> s.outcome == Reply(200, MessageBody("Blog Updated!"), KeepCookies)
    // Only the blog with the given id changes; other blogs stay as they were.
    ensures |s.state.blogs| == |st.blogs|
    ensures forall j :: 0 <= j < |st.blogs| && (body.blogId.None? || !SameId(st.blogs[j].id, body.blogId.value)) ==>
      s.state.blogs[j] == st.blogs[j]
    // Without a photo, only title and content change.
    ensures body.photo.None? ==>
      && s.files == []
      && forall j :: 0 <= j < |st.blogs| ==> s.state.blogs[j].photoPath == st.blogs[j].photoPath
    // With a photo: the old file goes, the new one is written, and the new
    // path names the new file.
    ensures s.outcome.Reply? && body.photo.Some? ==>
      var prior := FindBlogById(st.blogs, body.blogId.value).value;
      var name := ImageName(env.clock, body.author.value);
      && s.files == [RemoveFile(StorageFile(LastSegment(prior.photoPath))),
                     WriteFile(StorageFile(name), StripDataUriPrefix(body.photo.value))]
      && FindBlogById(s.state.blogs, body.blogId.value).Some?
      && FindBlogById(s.state.blogs, body.blogId.value).value.photoPath == PhotoPath(serverPath, name)
      && LastSegment(FindBlogById(s.state.blogs, body.blogId.value).value.photoPath) == name
    // A successful update is `updateOne({ _id }, { title, content[, photoPath] })`:
    // the blog found by the id now carries the new title and content.
    ensures s.outcome.Reply? ==>
      s.state.blogs == UpdateOneBlog(st.blogs, body.blogId.value, body.title.value, body.content.value,
                                     if body.photo.Some? then Some(PhotoPath(serverPath, ImageName(env.clock, body.author.value)))
                                     else None)
    ensures s.outcome.Reply? && BlogIdInUse(st.blogs, body.blogId.value) ==>
      var found := FindBlogById(s.state.blogs, body.blogId.value);
      && found.Some? && found.value.title == body.title.value && found.value.content == body.content.value
    // A photo for a missing blog reads `photoPath` of null, outside any `try`.
    ensures UpdateSchemaError(body).None? && Fault(env, FindBlog).None? && body.photo.Some?
            && !BlogIdInUse(st.blogs, body.blogId.value) ==>
      s.outcome == Unhandled(NullRead("photoPath"))
    // The update itself is outside any `try`: its failure escapes.
    ensures UpdateSchemaError(body).None? && Fault(env, FindBlog).None?
            && (body.photo.Some? ==> BlogIdInUse(st.blogs, body.blogId.value))
            && Fault(env, UpdateBlogRecord).Some? ==>
      s.outcome == Unhandled(Fault(env, UpdateBlogRecord).value)
    ensures UniqueBlogIds(st) ==> UniqueBlogIds(s.state)
  {
    match UpdateSchemaError(body)
    case Some(key) => BlogStep(st, Forward(ValidationError(key)), [])
    case None =>
      var id := body.blogId.value;
      if Fault(env, FindBlog).Some? then BlogStep(st, Forward(Fault(env, FindBlog).value), [])
      else if body.photo.Some? then
        match FindBlogById(st.blogs, id)
        case None => BlogStep(st, Unhandled(NullRead("photoPath")), [])
        case Some(prior) =>
          var previous := LastSegment(prior.photoPath);
          var imagePath := ImageName(env.clock, body.author.value);
          var files := [RemoveFile(StorageFile(previous)),
                        WriteFile(StorageFile(imagePath), StripDataUriPrefix(body.photo.value))];
          if Fault(env, UpdateBlogRecord).Some? then BlogStep(st, Unhandled(Fault(env, UpdateBlogRecord).value), files)
          else
            var path := PhotoPath(serverPath, imagePath);
            PhotoPathRecoversImageName(serverPath, env.clock, body.author.value);
            var blogs' := UpdateOneBlog(st.blogs, id, body.title.value, body.content.value, Some(path));
            assert FindBlogById(blogs', id) == Some(Revise(prior, body.title.value, body.content.value, Some(path)));
            assert UniqueBlogIds(st) ==> Injective(blogs', BlogKey) by {
              if UniqueBlogIds(st) {
                forall a, b | 0 <= a < b < |blogs'|
                  ensures BlogKey(blogs'[a]) != BlogKey(blogs'[b])
                {
                  assert BlogKey(st.blogs[a]) != BlogKey(st.blogs[b]);
                }
              }
            }
            BlogStep(st.(blogs := blogs'), Reply(200, MessageBody("Blog Updated!"), KeepCookies), files)
      else if Fault(env, UpdateBlogRecord).Some? then BlogStep(st, Unhandled(Fault(env, UpdateBlogRecord).value), [])
      else
        var blogs' := UpdateOneBlog(st.blogs, id, body.title.value, body.content.value, None);
        assert BlogIdInUse(st.blogs, id) ==>
          FindBlogById(blogs', id) == Some(Revise(FindBlogById(st.blogs, id).value, body.title.value, body.content.value, None));
        assert UniqueBlogIds(st) ==> Injective(blogs', BlogKey) by {
          if UniqueBlogIds(st) {
            forall a, b | 0 <= a < b < |blogs'|
              ensures BlogKey(blogs'[a]) != BlogKey(blogs'[b])
            {
              assert BlogKey(st.blogs[a]) != BlogKey(st.blogs[b]);
            }
          }
        }
        BlogStep(st.(blogs := blogs'), Reply(200, MessageBody("Blog Updated!"), KeepCookies), [])
  }

  /** `Blog.deleteOne({ _id: id })`: removes the first blog with that id. */
  function DeleteOneBlog(blogs: seq<Blog>, id: Id): (r: seq<Blog>)
    ensures !BlogIdInUse(blogs, id) ==> r == blogs
    ensures BlogIdInUse(blogs, id) ==>
      exists i :: 0 <= i < |blogs| && SameId(blogs[i].id, id) && r == RemoveAt(blogs, i)
    ensures Injective(blogs, BlogKey) ==> Injective(r, BlogKey) && !BlogIdInUse(r, id)
    ensures forall j :: 0 <= j < |blogs| && !SameId(blogs[j].id, id) ==> blogs[j] in r
  {
    match FirstIndex(blogs, (b: Blog) => SameId(b.id, id))
    case None => blogs
    case Some(i) =>
      var r := RemoveAt(blogs, i);
      assert Injective(blogs, BlogKey) ==> Injective(r, BlogKey) && !BlogIdInUse(r, id) by {
        if Injective(blogs, BlogKey) {
          RemoveAtInjective(blogs, i, BlogKey);
          forall j | 0 <= j < |r|
            ensures !SameId(r[j].id, id)
          {
            var j' := if j < i then j else j + 1;
            assert r[j] == blogs[j'];
            if j' < i { assert BlogKey(blogs[j']) != BlogKey(blogs[i]); }
            else { assert BlogKey(blogs[i]) != BlogKey(blogs[j']); }
          }
        }
      }
      assert forall j :: 0 <= j < |blogs| && !SameId(blogs[j].id, id) ==> blogs[j] in r by {
        forall j | 0 <= j < |blogs| && !SameId(blogs[j].id, id)
          ensures blogs[j] in r
        {
          if j < i { assert r[j] == blogs[j]; }
          else { assert r[j - 1] == blogs[j]; }
        }
      }
      r
  }

  /** `deleteBlog`: the id schema's result is never read, so an id that is
      not an ObjectId reaches `Blog.deleteOne`, whose cast fails before any
      store call and is forwarded. Otherwise the blog is deleted, then every
      comment of that blog. If the second deletion fails, the blog is gone
      and its comments remain. */
  function DeleteBlog(st: BlogState, id: string, env: Env): (s: BlogStep)
    ensures s.files == []
    ensures !IsObjectId(id) ==> s == BlogStep(st, Forward(CastError("Blog", id, "string")), [])
    ensures s.outcome.Reply? <==> IsObjectId(id) && Fault(env, DeleteBlogRecord).None? && Fault(env, DeleteBlogComments).None?
    ensures s.outcome.Reply? ==> s.outcome == Reply(200, MessageBody("Blog Deleted"), KeepCookies)
    ensures IsObjectId(id) && Fault(env, DeleteBlogRecord).Some? ==>
      s == BlogStep(st, Forward(Fault(env, DeleteBlogRecord).value), [])
    ensures IsObjectId(id) && Fault(env, DeleteBlogRecord).None? ==> s.state.blogs == DeleteOneBlog(st.blogs, id)
    ensures IsObjectId(id) && Fault(env, DeleteBlogRecord).None? && Fault(env, DeleteBlogComments).Some? ==>
      s.state.comments == st.comments
    // On success: none of the blog's comments remain, every other one does.
    ensures s.outcome.Reply? ==>
      && (forall i :: 0 <= i < |s.state.comments| ==> !SameId(s.state.comments[i].blog, id))
      && (forall c :: c in st.comments && !SameId(c.blog, id) ==> c in s.state.comments)
      && |s.state.comments| == |st.comments| - |CommentsOf(st.comments, id)|
    // ... and the kept comments stay in store order.
    ensures s.outcome.Reply? ==> s.state.comments == WithoutBlog(st.comments, id)
    ensures UniqueBlogIds(st) ==> UniqueBlogIds(s.state)
    ensures UniqueBlogIds(st) && IsObjectId(id) && Fault(env, DeleteBlogRecord).None? ==> !BlogIdInUse(s.state.blogs, id)
  {
    if !IsObjectId(id) then BlogStep(st, Forward(CastError("Blog", id, "string")), [])
    else if Fault(env, DeleteBlogRecord).Some? then BlogStep(st, Forward(Fault(env, DeleteBlogRecord).value), [])
    else
      var blogs' := DeleteOneBlog(st.blogs, id);
      if Fault(env, DeleteBlogComments).Some? then
        BlogStep(BlogState(blogs', st.comments), Forward(Fault(env, DeleteBlogComments).value), [])
      else
        CommentsPartition(st.comments, id);
        BlogStep(BlogState(blogs', WithoutBlog(st.comments, id)), Reply(200, MessageBody("Blog Deleted"), KeepCookies), [])
  }

  /** The file an update removes is the one the blog's creation wrote:
      after a successful creation, an update of that blog with a new photo
      succeeds and first removes exactly the created file. */
  lemma UpdateRemovesCreatedImage(serverPath: string, st: BlogState, created: CreateBody, env1: Env,
                                  updated: UpdateBody, env2: Env)
    requires CreateSchemaError(created).None? && Fault(env1, SaveBlog).None?
    requires !BlogIdInUse(st.blogs, env1.newRecordId)
    requires UpdateSchemaError(updated).None? && updated.photo.Some?
    // The update may name the new blog in either letter case.
    requires updated.blogId.Some? && SameId(env1.newRecordId, updated.blogId.value)
    requires Fault(env2, FindBlog).None? && Fault(env2, UpdateBlogRecord).None?
    ensures var s1 := CreateBlog(serverPath, st, created, env1);
            var s2 := UpdateBlog(serverPath, s1.state, updated, env2);
            s2.outcome.Reply? && s2.files[0] == RemoveFile(s1.files[0].path)
  {
    var s1 := CreateBlog(serverPath, st, created, env1);
    var b := s1.state.blogs[|st.blogs|];
    assert s1.state.blogs == st.blogs + [b] by {
      assert s1.state.blogs == s1.state.blogs[..|st.blogs|] + [b];
    }
    assert BlogIdInUse(s1.state.blogs, env1.newRecordId) by {
      assert s1.state.blogs[|st.blogs|].id == env1.newRecordId;
    }
    var found := FindBlogById(s1.state.blogs, updated.blogId.value);
    assert found == Some(b);
  }
}

=== FILE: CommentController.dfy ===
/** The comment handlers: creating a comment on a blog, and listing the
    comments of one blog. */
module CommentController {
  import opened Wrappers
  import opened Models
  import opened Errors
  import opened Validators
  import opened Http

  datatype CommentBody = CommentBody(content: Option<string>, author: Option<string>, blog: Option<string>)

  datatype CommentStep = CommentStep(comments: seq<Comment>, outcome: Outcome)

  /** The comment schema: the first failing key, or `None`. */
  function CommentSchemaError(body: CommentBody): (r: Option<string>)
    ensures r.None? <==> RequiredString(body.content) && ObjectIdValid(body.author) && ObjectIdValid(body.blog)
    ensures r.Some? ==> r.value in {"content", "author", "blog"}
  {
    if !RequiredString(body.content) then Some("content")
    else if !ObjectIdValid(body.author) then Some("author")
    else if !ObjectIdValid(body.blog) then Some("blog")
    else None
  }

  /** `create`: validate, save the comment, reply 201. */
  function CreateComment(cs: seq<Comment>, body: CommentBody, env: Env): (s: CommentStep)
    ensures CommentSchemaError(body).Some? ==>
      s == CommentStep(cs, Forward(ValidationError(CommentSchemaError(body).value)))
    ensures !s.outcome.Reply? ==> s.comments == cs
    ensures s.outcome.Reply? <==> CommentSchemaError(body).None? && Fault(env, SaveComment).None?
    ensures Fault(env, SaveComment).Some? && CommentSchemaError(body).None? ==>
      s.outcome == Forward(Fault(env, SaveComment).value)
    ensures s.outcome.Reply? ==>
      && s.comments == cs + [Comment(body.content.value, body.author.value, body.blog.value)]
      && s.outcome == Reply(201, MessageBody("Comment Created"), KeepCookies)
  {
    match CommentSchemaError(body)
    case Some(key) => CommentStep(cs, Forward(ValidationError(key)))
    case None =>
      if Fault(env, SaveComment).Some? then CommentStep(cs, Forward(Fault(env, SaveComment).value))
      else
        var c := Comment(body.content.value, body.author.value, body.blog.value);
        CommentStep(cs + [c], Reply(201, MessageBody("Comment Created"), KeepCookies))
  }

  /** The query `Comment.find({ blog: id })` and the loop of `getById` over
      its result, folded into one loop: it visits every stored comment, skips
      those of other blogs (the query's filter), and builds one view per
      comment of blog `id`, in store order. */
  method ViewsOf(cs: seq<Comment>, id: Id) returns (views: seq<CommentView>)
    ensures |views| == |CommentsOf(cs, id)|
    ensures forall j :: 0 <= j < |views| ==> views[j] == CommentView(CommentsOf(cs, id)[j])
  {
    views := [];
    ghost var found: seq<Comment> := [];
    var i := 0;
    while i < |cs|
      invariant 0 <= i <= |cs|
      invariant found == CommentsOf(cs[..i], id)
      invariant |views| == |found|
      invariant forall j :: 0 <= j < |views| ==> views[j] == CommentView(found[j])
    {
      CommentsOfAppend(cs[..i], cs[i], id);
      assert cs[..i + 1] == cs[..i] + [cs[i]];
      if SameId(cs[i].blog, id) {
        views := views + [CommentView(cs[i])];
        found := found + [cs[i]];
      }
      i := i + 1;
    }
    assert cs[..|cs|] == cs;
  }

  /** The views list exactly the blog's comments. */
  lemma ViewsAreTheBlogsComments(cs: seq<Comment>, id: Id, views: seq<CommentView>)
    requires |views| == |CommentsOf(cs, id)|
    requires forall j :: 0 <= j < |views| ==> views[j] == CommentView(CommentsOf(cs, id)[j])
    ensures forall j :: 0 <= j < |views| ==> SameId(views[j].of.blog, id) && views[j].of in cs
    ensures forall c :: c in cs && SameId(c.blog, id) ==> CommentView(c) in views
  {
    var found := CommentsOf(cs, id);
    forall c | c in cs && SameId(c.blog, id)
      ensures CommentView(c) in views
    {
      var k :| 0 <= k < |found| && found[k] == c;
      assert views[k] == CommentView(c);
    }
  }

  /** `getById`: an id failing the ObjectId pattern is forwarded before any
      query; otherwise the views of the blog's comments are returned. */
  method GetById(cs: seq<Comment>, id: string, env: Env) returns (o: Outcome)
    ensures !ObjectIdValid(Some(id)) ==> o == Forward(ValidationError("id"))
    ensures ObjectIdValid(Some(id)) && Fault(env, FindComments).Some? ==> o == Forward(Fault(env, FindComments).value)
    ensures ObjectIdValid(Some(id)) && Fault(env, FindComments).None? ==>
      && o.Reply? && o.status == 200 && o.body.CommentsBody? && o.cookies == KeepCookies
      && |o.body.data| == |CommentsOf(cs, id)|
      && (forall i :: 0 <= i < |o.body.data| ==> o.body.data[i] == CommentView(CommentsOf(cs, id)[i]))
      && (forall i :: 0 <= i < |o.body.data| ==> SameId(o.body.data[i].of.blog, id))
      && (forall c :: c in cs && SameId(c.blog, id) ==> CommentView(c) in o.body.data)
  {
    if !ObjectIdValid(Some(id)) {
      return Forward(ValidationError("id"));
    }
    if Fault(env, FindComments).Some? {
      return Forward(Fault(env, FindComments).value);
    }
    var views := ViewsOf(cs, id);
    ViewsAreTheBlogsComments(cs, id, views);
    return Reply(200, CommentsBody(views), KeepCookies);
  }

  /** A comment created on a blog is listed, last, among that blog's
      comments. */
  lemma CreatedCommentIsListed(cs: seq<Comment>, body: CommentBody, env: Env)
    requires CreateComment(cs, body, env).outcome.Reply?
    ensures var after := CreateComment(cs, body, env).comments;
      CommentsOf(after, body.blog.value)
        == CommentsOf(cs, body.blog.value) + [Comment(body.content.value, body.author.value, body.blog.value)]
  {
    CommentsOfAppend(cs, Comment(body.content.value, body.author.value, body.blog.value), body.blog.value);
  }
}

=== FILE: Errors.dfy ===
/** The error values handed to Express's `next`, and the error mapper that
    turns one into the status code and JSON `message` of the response. */
module Errors {
  import opened Wrappers

  /** Whether the error is an instance of Joi's `ValidationError`. */
  datatype ErrorKind = JoiValidation | Other

  /** What the mapper reads from an error: its class and its `status` and
      `message` properties (`None` when the property is undefined). */
  datatype ErrorDesc = ErrorDesc(kind: ErrorKind, status: Option<int>, message: Option<string>)

  /** Status code and the JSON `message` field of the error response;
      `None` means the field is undefined and so absent from the JSON. */
  datatype ErrorReply = ErrorReply(status: int, message: Option<string>)

  const DefaultStatus := 500
  const DefaultMessage := "Internal Server Error"
  const ValidationStatus := 401

  /** JavaScript truthiness of `error.status`: defined and not 0. */
  predicate HasStatus(e: ErrorDesc) { e.status.Some? && e.status.value != 0 }

  /** JavaScript truthiness of `error.message`: defined and not "". */
  predicate HasMessage(e: ErrorDesc) { e.message.Some? && e.message.value != "" }

  /** The error mapper: start from 500 "Internal Server Error"; a Joi
      validation error makes it 401 with the error's message; then a truthy
      `status` and a truthy `message` each override. The status and message
      are decided independently of each other. */
  function HandleError(e: ErrorDesc): (r: ErrorReply)
    ensures HasStatus(e) ==> r.status == e.status.value
    ensures !HasStatus(e) && e.kind == JoiValidation ==> r.status == ValidationStatus
    ensures !HasStatus(e) && e.kind == Other ==> r.status == DefaultStatus
    ensures HasMessage(e) ==> r.message == e.message
    ensures !HasMessage(e) && e.kind == JoiValidation ==> r.message == e.message
    ensures !HasMessage(e) && e.kind == Other ==> r.message == Some(DefaultMessage)
  {
    var status0 := DefaultStatus;
    var message0 := Some(DefaultMessage);
    var status1 := if e.kind == JoiValidation then ValidationStatus else status0;
    var message1 := if e.kind == JoiValidation then e.message else message0;
    var status2 := if HasStatus(e) then e.status.value else status1;
    var message2 := if HasMessage(e) then e.message else message1;
    ErrorReply(status2, message2)
  }

  /** An object literal `{ status, message }` passed to `next`. */
  function Plain(status: int, message: string): ErrorDesc
  {
    ErrorDesc(Other, Some(status), Some(message))
  }

  const Unauthorized := Plain(401, "Unauthorized")

  /** The `TypeError` thrown when a property of `null` is read. */
  function NullRead(property: string): ErrorDesc
  {
    ErrorDesc(Other, None, Some("Cannot read properties of null (reading '" + property + "')"))
  }

  /** A Joi `ValidationError`; its message text is represented by the quoted
      label of the key that failed. */
  function ValidationError(key: string): ErrorDesc
  {
    ErrorDesc(JoiValidation, None, Some("\"" + key + "\""))
  }

  /** Mongoose's `CastError` for a filter `_id` that is not an ObjectId:
      `value` is the rendered filter value and `valueType` its type. */
  function CastError(model: string, value: string, valueType: string): ErrorDesc
  {
    ErrorDesc(Other, None, Some("Cast to ObjectId failed for value \"" + value + "\" (type " + valueType
                                + ") at path \"_id\" for model \"" + model + "\""))
  }

  /** The store's error for a second document with an existing `_id`. */
  const DuplicateKey := ErrorDesc(Other, None, Some("E11000 duplicate key error"))

  /** An error carrying neither status nor message renders as the default. */
  lemma BareErrorIsInternal(e: ErrorDesc)
    requires e.kind == Other && e.status.None? && e.message.None?
    ensures HandleError(e) == ErrorReply(500, Some("Internal Server Error"))
  {
  }

  /** A validation error from a schema renders as 401 with its message. */
  lemma ValidationErrorIs401(key: string)
    ensures HandleError(ValidationError(key)) == ErrorReply(401, ValidationError(key).message)
  {
  }
}

=== FILE: Http.dfy ===
/** What a request handler sees besides its body, and what it produces.
    The environment fixes everything the handlers obtain from outside:
    the clock, the ids the store hands out, bcrypt's salt, and which store
    calls fail with which error. */
module Http {
  import opened Wrappers
  import opened Seqs
  import opened Models
  import opened Errors
  import opened UserDto
  import opened Jwt

  /** The store calls the handlers make, one per call site. */
  datatype StoreOp =
    | ExistsUsername | ExistsEmail | SaveUser | SaveRefreshRecord
    | FindUserByUsername | UpsertRefreshRecord | DeleteRefreshRecord
    | UpdateRefreshRecord | FindUserById | GuardFindUser
    | FindBlogs | FindBlog | SaveBlog | UpdateBlogRecord
    | DeleteBlogRecord | DeleteBlogComments | SaveComment | FindComments

  /** `clock` is `Date.now()` in milliseconds; `newUserId` and `newRecordId`
      the `_id`s the store assigns to a document saved by this request;
      `faults` the store calls that fail, with the error each throws;
      `undefinedMatch` how the store reads a filter value that is
      `undefined`. */
  datatype Env = Env(clock: nat, newUserId: Id, newRecordId: Id, salt: nat,
                     faults: map<StoreOp, ErrorDesc>, undefinedMatch: UndefinedMatch)

  function Fault(env: Env, op: StoreOp): Option<ErrorDesc>
  {
    if op in env.faults then Some(env.faults[op]) else None
  }

  /** The `accessToken` and `refreshToken` cookies of the request. */
  datatype Cookies = Cookies(accessToken: Option<Credential>, refreshToken: Option<Credential>)

  /** What the response does to the client's cookies. */
  datatype CookieAction = KeepCookies | SetCookies(access: Token, refresh: Token) | ClearCookies

  datatype Body =
    | UserBody(user: Option<UserDTO>, auth: bool)
    | MessageBody(message: string)
    | BlogBody(blog: BlogView)
    | BlogsBody(blogs: seq<BlogView>)
    | CommentsBody(data: seq<CommentView>)

  /** A handler either replies, hands an error to `next` (and so to the
      error mapper), or lets an exception escape the async handler, which
      Express does not catch: then no response is sent. */
  datatype Outcome =
    | Reply(status: int, body: Body, cookies: CookieAction)
    | Forward(error: ErrorDesc)
    | Unhandled(error: ErrorDesc)

  /** The status code the client receives, if any. */
  function StatusOf(o: Outcome): Option<int>
  {
    match o
    case Reply(status, _, _) => Some(status)
    case Forward(e) => Some(HandleError(e).status)
    case Unhandled(_) => None
  }
}

=== FILE: Jwt.dfy ===
/** The token service: symbolic JSON Web Tokens signed with one of two
    secrets and verified against one of them, with the `exp` claim of
    section 4.1.4 of RFC 7519 checked against an explicit clock. */
module Jwt {
  import opened Wrappers
  import opened Models
  import opened Errors

  /** The two configured secrets. */
  datatype Secrets = Secrets(accessSecret: string, refreshSecret: string)

  /** The object a token is signed over. The controllers sign `{ _id }`
      (`mongoId`) except login's refresh token, which carries `{ id }`. */
  datatype Payload = Payload(mongoId: Option<Id>, id: Option<Id>)

  /** A signed token: the secret it was signed with, the payload, and the
      `iat` and `exp` claims in seconds. */
  datatype Token = Token(secret: string, payload: Payload, iat: int, exp: int)

  /** What a successful verification returns: the payload with `iat`/`exp`. */
  datatype Claims = Claims(payload: Payload, iat: int, exp: int)

  /** A credential as a client presents it: a token the service signed, or
      any other string (which does not decode as a token). */
  datatype Credential = Signed(token: Token) | Opaque(text: string)

  /** JavaScript truthiness of a cookie value: present and not "". */
  predicate Present(c: Option<Credential>)
  {
    c.Some? && c.value != Opaque("")
  }

  /** `'30m'` and `'60m'`, in seconds. */
  const AccessLifetime: nat := 30 * 60
  const RefreshLifetime: nat := 60 * 60

  /** The token clock: whole seconds of the millisecond clock `Date.now()`. */
  function Seconds(clock: nat): nat { clock / 1000 }

  /** `jwt.sign(payload, secret, { expiresIn })` at time `clock`. */
  function Sign(secret: string, payload: Payload, lifetime: nat, clock: nat): (t: Token)
    ensures t.secret == secret && t.payload == payload
    ensures t.iat == Seconds(clock) && t.exp == t.iat + lifetime
  {
    Token(secret, payload, Seconds(clock), Seconds(clock) + lifetime)
  }

  function SignAccessToken(k: Secrets, payload: Payload, lifetime: nat, clock: nat): (t: Token)
    ensures t.secret == k.accessSecret
  {
    Sign(k.accessSecret, payload, lifetime, clock)
  }

  function SignRefreshToken(k: Secrets, payload: Payload, lifetime: nat, clock: nat): (t: Token)
    ensures t.secret == k.refreshSecret
  {
    Sign(k.refreshSecret, payload, lifetime, clock)
  }

  /** The failures of `jwt.verify`, in the order it checks them. */
  datatype JwtError = NotProvided | Malformed | InvalidSignature | Expired

  /** `jwt.verify(token, secret)` at time `clock`: a missing or empty token,
      then a string that is no token, then a signature by another secret,
      then an expired token (`clock >= exp`) are refused, in that order. */
  function Verify(secret: string, c: Option<Credential>, clock: nat): (r: Result<Claims, JwtError>)
    ensures r.Ok? <==> Present(c) && c.value.Signed? && c.value.token.secret == secret
                       && Seconds(clock) < c.value.token.exp
    ensures r.Ok? ==> r.value == Claims(c.value.token.payload, c.value.token.iat, c.value.token.exp)
    ensures r == Err(NotProvided) <==> !Present(c)
    ensures r == Err(InvalidSignature) <==> Present(c) && c.value.Signed? && c.value.token.secret != secret
    ensures r == Err(Expired) <==> Present(c) && c.value.Signed? && c.value.token.secret == secret
                                   && c.value.token.exp <= Seconds(clock)
  {
    if !Present(c) then Err(NotProvided)
    else match c.value
      case Opaque(_) => Err(Malformed)
      case Signed(t) =>
        if t.secret != secret then Err(InvalidSignature)
        else if t.exp <= Seconds(clock) then Err(Expired)
        else Ok(Claims(t.payload, t.iat, t.exp))
  }

  /** `verifyAccessToken`: only the access secret is ever used. */
  function VerifyAccessToken(k: Secrets, c: Option<Credential>, clock: nat): (r: Result<Claims, JwtError>)
    ensures r.Ok? ==> c.Some? && c.value.Signed? && c.value.token.secret == k.accessSecret
  {
    Verify(k.accessSecret, c, clock)
  }

  /** `verifyRefreshToken`: only the refresh secret is ever used. */
  function VerifyRefreshToken(k: Secrets, c: Option<Credential>, clock: nat): (r: Result<Claims, JwtError>)
    ensures r.Ok? ==> c.Some? && c.value.Signed? && c.value.token.secret == k.refreshSecret
  {
    Verify(k.refreshSecret, c, clock)
  }

  /** The error `jwt.verify` throws: a `JsonWebTokenError` or
      `TokenExpiredError` with jsonwebtoken's message and no `status`. */
  function JwtErrorDesc(e: JwtError): (d: ErrorDesc)
    ensures d.kind == Other && d.status.None? && d.message.Some?
  {
    match e
    case NotProvided => ErrorDesc(Other, None, Some("jwt must be provided"))
    case Malformed => ErrorDesc(Other, None, Some("jwt malformed"))
    case InvalidSignature => ErrorDesc(Other, None, Some("invalid signature"))
    case Expired => ErrorDesc(Other, None, Some("jwt expired"))
  }

  /** Round trip: a freshly signed access token verifies, while unexpired,
      to exactly the payload it was signed over. */
  lemma AccessRoundTrip(k: Secrets, p: Payload, lifetime: nat, clock: nat, later: nat)
    requires Seconds(later) < Seconds(clock) + lifetime
    ensures VerifyAccessToken(k, Some(Signed(SignAccessToken(k, p, lifetime, clock))), later)
            == Ok(Claims(p, Seconds(clock), Seconds(clock) + lifetime))
  {
  }

  /** Round trip for refresh tokens. */
  lemma RefreshRoundTrip(k: Secrets, p: Payload, lifetime: nat, clock: nat, later: nat)
    requires Seconds(later) < Seconds(clock) + lifetime
    ensures VerifyRefreshToken(k, Some(Signed(SignRefreshToken(k, p, lifetime, clock))), later)
            == Ok(Claims(p, Seconds(clock), Seconds(clock) + lifetime))
  {
  }

  /** With distinct secrets, neither token class passes the other's verifier,
      whatever the time. With equal secrets they would. */
  lemma TokenClassesSeparated(k: Secrets, p: Payload, lifetime: nat, clock: nat, later: nat)
    ensures k.accessSecret != k.refreshSecret <==>
      VerifyRefreshToken(k, Some(Signed(SignAccessToken(k, p, lifetime, clock))), later) == Err(InvalidSignature)
    ensures k.accessSecret != k.refreshSecret <==>
      VerifyAccessToken(k, Some(Signed(SignRefreshToken(k, p, lifetime, clock))), later) == Err(InvalidSignature)
  {
  }

  /** Once its lifetime has elapsed a token fails with `jwt expired`. */
  lemma ElapsedTokenExpires(secret: string, p: Payload, lifetime: nat, clock: nat, later: nat)
    requires Seconds(clock) + lifetime <= Seconds(later)
    ensures Verify(secret, Some(Signed(Sign(secret, p, lifetime, clock))), later) == Err(Expired)
  {
  }
}

=== FILE: Models.dfy ===
/** The stored records: users, blogs and comments, and the symbolic
    password hash. Ids are the 24-hex-digit strings of the store's ObjectIds. */
module Models {
  import opened Seqs
  import opened Text

  type Id = string

  /** A bcrypt hash, kept symbolic: it records what it was made from, and the
      model only ever inspects it through `ComparePassword`. */
  datatype Hash = Bcrypt(plain: string, salt: nat)

  /** `bcrypt.hash(password, 10)` with the salt bcrypt draws. */
  function HashPassword(password: string, salt: nat): (h: Hash)
    ensures ComparePassword(password, h)
    ensures forall other :: other != password ==> !ComparePassword(other, h)
  {
    Bcrypt(password, salt)
  }

  /** `bcrypt.compare(password, hash)`. */
  function ComparePassword(password: string, h: Hash): (r: bool)
    ensures r <==> h == Bcrypt(password, h.salt)
  {
    h.plain == password
  }

  datatype User = User(id: Id, username: string, name: string, email: string, password: Hash)

  datatype Blog = Blog(id: Id, title: string, content: string, photoPath: string, author: Id)

  datatype Comment = Comment(content: string, author: Id, blog: Id)

  /** What the response shows of a blog (its DTO class is not part of this
      model): the view is only known to be built from that one record. */
  datatype BlogView = BlogView(of: Blog)

  /** What the response shows of a comment, built from that one record. */
  datatype CommentView = CommentView(of: Comment)

  function UserId(u: User): Id { u.id }
  function Username(u: User): string { u.username }
  function UserEmail(u: User): string { u.email }

  /** The id a filter value is cast to before the store compares it: the
      ObjectId a 24-hex-digit string denotes, whose rendering is lower-case. */
  function CastId(id: Id): Id { LowerCase(id) }

  /** Whether a stored id and an id in a query filter name the same document:
      they cast to the same ObjectId, whatever the case of their letters. */
  predicate SameId(stored: Id, query: Id) { CastId(stored) == CastId(query) }

  /** The key the store keeps blogs unique by. */
  function BlogKey(b: Blog): Id { CastId(b.id) }

  /** `Comment.find({ blog })`: the comments of one blog, in store order. */
  function CommentsOf(cs: seq<Comment>, blog: Id): (r: seq<Comment>)
    ensures forall i :: 0 <= i < |r| ==> SameId(r[i].blog, blog) && r[i] in cs
    ensures forall c :: c in cs && SameId(c.blog, blog) ==> c in r
  {
    Filter(cs, (c: Comment) => SameId(c.blog, blog))
  }

  /** What `Comment.deleteMany({ blog })` leaves: every other comment, in order. */
  function WithoutBlog(cs: seq<Comment>, blog: Id): (r: seq<Comment>)
    ensures forall i :: 0 <= i < |r| ==> !SameId(r[i].blog, blog) && r[i] in cs
    ensures forall c :: c in cs && !SameId(c.blog, blog) ==> c in r
  {
    Filter(cs, (c: Comment) => !SameId(c.blog, blog))
  }

  /** Appending a comment to the store appends it to its own blog's
      comments and to no other blog's. */
  lemma CommentsOfAppend(cs: seq<Comment>, c: Comment, blog: Id)
    ensures CommentsOf(cs + [c], blog) == CommentsOf(cs, blog) + (if SameId(c.blog, blog) then [c] else [])
  {
    var p := (c: Comment) => SameId(c.blog, blog);
    FilterAppend(cs, [c], p);
    assert [c][1..] == [];
  }

  /** The query's letter case does not matter: `find({ blog: id })` lists the
      same comments as the query with the id lower-cased. */
  lemma {:induction false} CommentsOfIgnoresCase(cs: seq<Comment>, blog: Id)
    ensures CommentsOf(cs, blog) == CommentsOf(cs, CastId(blog))
    decreases |cs|
  {
    LowerCaseIdempotent(blog);
    if |cs| > 0 {
      var init := cs[..|cs| - 1];
      var last := cs[|cs| - 1];
      assert cs == init + [last];
      CommentsOfIgnoresCase(init, blog);
      CommentsOfAppend(init, last, blog);
      CommentsOfAppend(init, last, CastId(blog));
    }
  }

  /** Every comment is either one of the blog's or kept by the deletion. */
  lemma CommentsPartition(cs: seq<Comment>, blog: Id)
    ensures |CommentsOf(cs, blog)| + |WithoutBlog(cs, blog)| == |cs|
  {
    FilterSplitsLength(cs, (c: Comment) => SameId(c.blog, blog), (c: Comment) => !SameId(c.blog, blog));
  }
}

=== FILE: Seqs.dfy ===
/** Sequence helpers for collections kept in natural (insertion) order, the
    order in which a document store's `findOne`, `updateOne` and `deleteOne`
    meet the documents a filter matches. */
module Seqs {
  import opened Wrappers

  /** The index of the first element satisfying `p`: the document a
      `findOne`/`updateOne`/`deleteOne` with filter `p` acts on. */
  function FirstIndex<T>(s: seq<T>, p: T -> bool): (r: Option<nat>)
    ensures r.Some? ==> r.value < |s| && p(s[r.value])
    ensures r.Some? ==> forall j :: 0 <= j < r.value ==> !p(s[j])
    ensures r.None? <==> forall j :: 0 <= j < |s| ==> !p(s[j])
    decreases |s|
  {
    if |s| == 0 then None
    else if p(s[0]) then Some(0)
    else match FirstIndex(s[1..], p)
      case None => None
      case Some(i) => Some(i + 1)
  }

  /** How the store reads a filter `{ field: v }` whose `v` is undefined.
      The driver may drop the key, leaving `{}`, which matches every
      document (`MatchAll`), or may keep it as `null`, which a document
      whose field is always set never equals (`MatchNone`). */
  datatype UndefinedMatch = MatchNone | MatchAll

  /** The index of the document a `findOne`/`updateOne`/`deleteOne` with
      filter `{ field: v }` acts on; `None` for an undefined `v`. */
  function FirstMatch<T, V(==)>(s: seq<T>, v: Option<V>, field: T -> V, u: UndefinedMatch): (r: Option<nat>)
    ensures r.Some? ==> r.value < |s|
    ensures v.Some? && r.Some? ==>
      field(s[r.value]) == v.value && forall j :: 0 <= j < r.value ==> field(s[j]) != v.value
    ensures v.Some? ==> (r.None? <==> forall j :: 0 <= j < |s| ==> field(s[j]) != v.value)
    // An undefined value matches nothing, or every document and so the first.
    ensures v.None? && r.Some? ==> u.MatchAll? && r.value == 0
    ensures v.None? ==> (r.None? <==> u.MatchNone? || |s| == 0)
  {
    if v.None? then (if u.MatchAll? && |s| > 0 then Some(0) else None)
    else FirstIndex(s, (x: T) => field(x) == v.value)
  }

  /** The elements satisfying `p`, in order: what `find(filter)` returns. */
  function Filter<T>(s: seq<T>, p: T -> bool): (r: seq<T>)
    ensures |r| <= |s|
    ensures forall i :: 0 <= i < |r| ==> p(r[i]) && r[i] in s
    ensures forall i :: 0 <= i < |s| && p(s[i]) ==> s[i] in r
    decreases |s|
  {
    if |s| == 0 then []
    else if p(s[0]) then [s[0]] + Filter(s[1..], p)
    else Filter(s[1..], p)
  }

  /** Filtering commutes with concatenation, so the order of the matching
      elements is the order they have in the store. */
  lemma {:induction false} FilterAppend<T>(a: seq<T>, b: seq<T>, p: T -> bool)
    ensures Filter(a + b, p) == Filter(a, p) + Filter(b, p)
    decreases |a|
  {
    if |a| > 0 {
      assert (a + b)[1..] == a[1..] + b;
      FilterAppend(a[1..], b, p);
    } else {
      assert a + b == b;
    }
  }

  /** Every element is either kept by `p` or by its negation. */
  lemma {:induction false} FilterSplitsLength<T>(s: seq<T>, p: T -> bool, q: T -> bool)
    requires forall x :: q(x) == !p(x)
    ensures |Filter(s, p)| + |Filter(s, q)| == |s|
    decreases |s|
  {
    if |s| > 0 {
      FilterSplitsLength(s[1..], p, q);
    }
  }

  /** `s` without its element at index `i`. */
  function RemoveAt<T>(s: seq<T>, i: nat): (r: seq<T>)
    requires i < |s|
    ensures |r| == |s| - 1
    ensures forall j :: 0 <= j < i ==> r[j] == s[j]
    ensures forall j :: i <= j < |r| ==> r[j] == s[j + 1]
  {
    s[..i] + s[i + 1..]
  }

  /** No two elements share a `key`. */
  ghost predicate Injective<T, K>(s: seq<T>, key: T -> K)
  {
    forall i, j :: 0 <= i < j < |s| ==> key(s[i]) != key(s[j])
  }

  lemma RemoveAtInjective<T, K>(s: seq<T>, i: nat, key: T -> K)
    requires i < |s| && Injective(s, key)
    ensures Injective(RemoveAt(s, i), key)
  {
    var r := RemoveAt(s, i);
    forall a, b | 0 <= a < b < |r|
      ensures key(r[a]) != key(r[b])
    {
      var a' := if a < i then a else a + 1;
      var b' := if b < i then b else b + 1;
      assert r[a] == s[a'] && r[b] == s[b'];
    }
  }
}

=== FILE: SessionProperties.dfy ===
/** Properties relating several session handlers: what a registration
    enables, and what the refresh handler does and does not check. */
module SessionProperties {
  import opened Wrappers
  import opened Models
  import opened Errors
  import opened Validators
  import opened UserDto
  import opened Jwt
  import opened TokenStore
  import opened Http
  import opened AuthController
  import opened AuthGuard

  /** After a successful registration, logging in with the same username and
      password succeeds and reports the same user. */
  lemma RegisterThenLogin(k: Secrets, st: AuthState, body: RegisterBody, isEmail: string -> bool,
                          env1: Env, env2: Env)
    requires Register(k, st, body, isEmail, env1).outcome.Reply?
    requires Fault(env2, FindUserByUsername).None? && Fault(env2, UpsertRefreshRecord).None?
    ensures var s1 := Register(k, st, body, isEmail, env1);
            var s2 := Login(k, s1.state, LoginBody(body.username, body.password), env2);
            s2.outcome.Reply? && s2.outcome.status == 200 && s2.outcome.body == s1.outcome.body
  {
    var s1 := Register(k, st, body, isEmail, env1);
    RegisteredCredentialsPassLogin(body.username, body.name, body.email, body.password, body.confirmPassword, isEmail);
    var u := s1.state.users[|st.users|];
    assert s1.state.users == st.users + [u] by {
      assert s1.state.users == s1.state.users[..|st.users|] + [u];
    }
  }

  /** The refresh handler's response never depends on the stored refresh
      records: the liveness lookup is not awaited, so it cannot reject. */
  lemma RefreshIgnoresRecords(k: Secrets, users: seq<User>, t1: seq<TokenRecord>, t2: seq<TokenRecord>,
                              cookies: Cookies, env: Env)
    ensures Refresh(k, AuthState(users, t1), cookies, env).outcome == Refresh(k, AuthState(users, t2), cookies, env).outcome
  {
  }

  /** A verified refresh token that no record holds is still honoured. */
  lemma UnrecordedTokenRefreshes(k: Secrets, st: AuthState, cookies: Cookies, env: Env)
    requires VerifyRefreshToken(k, cookies.refreshToken, env.clock).Ok?
    requires FindById(st.users, VerifyRefreshToken(k, cookies.refreshToken, env.clock).value.payload.mongoId,
                      env.undefinedMatch).Some?
    requires Fault(env, UpdateRefreshRecord).None? && Fault(env, FindUserById).None?
    requires !HasToken(st.tokens, cookies.refreshToken.value)
    ensures Refresh(k, st, cookies, env).outcome.Reply?
    ensures StatusOf(Refresh(k, st, cookies, env).outcome) == Some(200)
  {
  }

  /** Logging out does not revoke the refresh token: refreshing with it
      afterwards has exactly the outcome it had before. */
  lemma LogoutDoesNotRevoke(k: Secrets, st: AuthState, cookies: Cookies, env1: Env, env2: Env)
    ensures Refresh(k, Logout(st, cookies, env1).state, cookies, env2).outcome == Refresh(k, st, cookies, env2).outcome
  {
    RefreshIgnoresRecords(k, st.users, Logout(st, cookies, env1).state.tokens, st.tokens, cookies, env2);
  }

  /** A refresh does not consume the token it was given: while the token is
      unexpired, a second refresh with it succeeds like the first. */
  lemma RefreshTokenReusable(k: Secrets, st: AuthState, cookies: Cookies, env1: Env, env2: Env)
    requires Refresh(k, st, cookies, env1).outcome.Reply?
    requires VerifyRefreshToken(k, cookies.refreshToken, env2.clock).Ok?
    requires Fault(env2, UpdateRefreshRecord).None? && Fault(env2, FindUserById).None?
    // The same store, so an undefined filter value matches the same way.
    requires env2.undefinedMatch == env1.undefinedMatch
    ensures Refresh(k, Refresh(k, st, cookies, env1).state, cookies, env2).outcome.Reply?
  {
  }

  /** The refresh token login issues carries `id`, not `_id`, so its `_id` is
      undefined. Where the store matches an undefined filter value against
      nothing, refreshing with it updates no record and finds no user: the
      handler throws and no response is sent. */
  lemma LoginRefreshTokenUnusable(k: Secrets, st: AuthState, body: LoginBody, env1: Env,
                                  cookies: Cookies, env2: Env)
    requires Login(k, st, body, env1).outcome.Reply?
    requires cookies.refreshToken == Some(Signed(Login(k, st, body, env1).outcome.cookies.refresh))
    requires Seconds(env2.clock) < Login(k, st, body, env1).outcome.cookies.refresh.exp
    requires Fault(env2, UpdateRefreshRecord).None? && Fault(env2, FindUserById).None?
    requires env2.undefinedMatch.MatchNone?
    ensures var s1 := Login(k, st, body, env1);
            var s2 := Refresh(k, s1.state, cookies, env2);
            s2.state == s1.state && s2.outcome == Unhandled(NullRead("_id")) && StatusOf(s2.outcome).None?
  {
  }

  /** Where the store reads the undefined `_id` as the empty filter, as
      Mongoose does, refreshing with login's token succeeds for whichever
      user is stored first, overwrites the first refresh record, and issues
      new tokens whose payload names nobody. */
  lemma LoginRefreshTokenSelectsFirstUser(k: Secrets, st: AuthState, body: LoginBody, env1: Env,
                                          cookies: Cookies, env2: Env)
    requires Login(k, st, body, env1).outcome.Reply?
    requires cookies.refreshToken == Some(Signed(Login(k, st, body, env1).outcome.cookies.refresh))
    requires Seconds(env2.clock) < Login(k, st, body, env1).outcome.cookies.refresh.exp
    requires Fault(env2, UpdateRefreshRecord).None? && Fault(env2, FindUserById).None?
    requires env2.undefinedMatch.MatchAll?
    ensures |st.users| > 0 && |Login(k, st, body, env1).state.tokens| > 0
    ensures var s1 := Login(k, st, body, env1);
            var s2 := Refresh(k, s1.state, cookies, env2);
            var refresh := SignRefreshToken(k, Payload(None, None), RefreshLifetime, env2.clock);
            && s2.outcome == Reply(200, UserBody(Some(FromUser(st.users[0])), true),
                                   SetCookies(SignAccessToken(k, Payload(None, None), AccessLifetime, env2.clock), refresh))
            && s2.state.users == st.users
            && s2.state.tokens == s1.state.tokens[0 := s1.state.tokens[0].(token := Signed(refresh))]
  {
  }

  /** Under `MatchAll` the refresh above succeeds, but the access token it
      issues carries no `_id`: the guard's lookup by that payload throws the
      store's cast error, so every protected route answers 500. */
  lemma RefreshedLoginAccessTokenRejected(k: Secrets, st: AuthState, body: LoginBody, env1: Env,
                                          cookies: Cookies, env2: Env, refreshCookie: Credential, env3: Env)
    requires Login(k, st, body, env1).outcome.Reply?
    requires cookies.refreshToken == Some(Signed(Login(k, st, body, env1).outcome.cookies.refresh))
    requires Seconds(env2.clock) < Login(k, st, body, env1).outcome.cookies.refresh.exp
    requires Fault(env2, UpdateRefreshRecord).None? && Fault(env2, FindUserById).None?
    requires env2.undefinedMatch.MatchAll?
    requires Present(Some(refreshCookie))
    requires Seconds(env3.clock) < Seconds(env2.clock) + AccessLifetime
    ensures var s2 := Refresh(k, Login(k, st, body, env1).state, cookies, env2);
            && s2.outcome.Reply? && s2.outcome.cookies.SetCookies?
            && var g := Guard(k, s2.state.users, Cookies(Some(Signed(s2.outcome.cookies.access)), Some(refreshCookie)),
                              (c: Claims) => c.payload.mongoId, env3);
            && g == Reject(PayloadCastError)
            && HandleError(g.error).status == 500
  {
    LoginRefreshTokenSelectsFirstUser(k, st, body, env1, cookies, env2);
  }
}

=== FILE: Text.dfy ===
/** The JavaScript string semantics the controllers rely on: character
    classes of their regular expressions, `length` in UTF-16 code units,
    `split('/').at(-1)`, and the decimal rendering of `Date.now()`. */
module Text {

  predicate IsDigit(c: char) { '0' <= c <= '9' }
  predicate IsLower(c: char) { 'a' <= c <= 'z' }
  predicate IsUpper(c: char) { 'A' <= c <= 'Z' }

  /** The regex class `[a-zA-Z0-9]`. */
  predicate IsAlnum(c: char) { IsDigit(c) || IsLower(c) || IsUpper(c) }

  /** The regex class `[0-9a-fA-F]`. */
  predicate IsHexDigit(c: char) { IsDigit(c) || 'a' <= c <= 'f' || 'A' <= c <= 'F' }

  /** The characters ECMAScript's `.` refuses to match (no `s` flag). */
  predicate IsLineTerminator(c: char)
  {
    c == '\n' || c == '\r' || c == '\U{2028}' || c == '\U{2029}'
  }

  /** ASCII lower-casing of one character. */
  function ToLower(c: char): char
  {
    if IsUpper(c) then (c as int + 32) as char else c
  }

  /** ASCII lower-casing of a string, character by character. */
  function LowerCase(s: string): (r: string)
    ensures |r| == |s| && forall i :: 0 <= i < |s| ==> r[i] == ToLower(s[i])
  {
    seq(|s|, i requires 0 <= i < |s| => ToLower(s[i]))
  }

  /** Lower-casing twice is lower-casing once. */
  lemma LowerCaseIdempotent(s: string)
    ensures LowerCase(LowerCase(s)) == LowerCase(s)
  {
  }

  /** `s.length` in JavaScript: UTF-16 code units, so a character outside the
      Basic Multilingual Plane counts twice. Joi's `min`/`max` use it. */
  function Utf16Length(s: string): (n: nat)
    ensures |s| <= n <= 2 * |s|
    ensures (forall i :: 0 <= i < |s| ==> s[i] as int <= 0xFFFF) ==> n == |s|
    ensures |s| == 1 ==> n == CodeUnits(s[0])
    decreases |s|
  {
    if |s| == 0 then 0
    else CodeUnits(s[0]) + Utf16Length(s[1..])
  }

  /** One code unit for a character of the Basic Multilingual Plane, a
      surrogate pair (two units) for any other. */
  function CodeUnits(c: char): nat
  {
    if c as int > 0xFFFF then 2 else 1
  }

  /** Lengths add up: the length of `a + b` is the sum of theirs, so the
      length of a string is the sum of its characters' code units. */
  lemma {:induction false} Utf16LengthAppend(a: string, b: string)
    ensures Utf16Length(a + b) == Utf16Length(a) + Utf16Length(b)
    decreases |a|
  {
    if |a| == 0 {
      assert a + b == b;
    } else {
      assert (a + b)[1..] == a[1..] + b;
      Utf16LengthAppend(a[1..], b);
    }
  }

  function StartsWith(s: string, prefix: string): bool
  {
    |prefix| <= |s| && s[..|prefix|] == prefix
  }

  /** How often `c` occurs in `s`. */
  function Occurrences(s: string, c: char): (n: nat)
    ensures n <= |s|
    ensures n == 0 <==> c !in s
    decreases |s|
  {
    if |s| == 0 then 0
    else (if s[0] == c then 1 else 0) + Occurrences(s[1..], c)
  }

  /** `s.split(sep)` for a one-character separator: the pieces between the
      occurrences of `sep`; there is always at least one piece. */
  function Split(s: string, sep: char): (parts: seq<string>)
    ensures |parts| == 1 + Occurrences(s, sep)
    ensures forall i :: 0 <= i < |parts| ==> sep !in parts[i]
    decreases |s|
  {
    if |s| == 0 then [""]
    else
      var rest := Split(s[1..], sep);
      if s[0] == sep then [""] + rest
      else [[s[0]] + rest[0]] + rest[1..]
  }

  /** `parts.join(sep)`. */
  function Join(parts: seq<string>, sep: char): string
    decreases |parts|
  {
    if |parts| == 0 then ""
    else if |parts| == 1 then parts[0]
    else parts[0] + [sep] + Join(parts[1..], sep)
  }

  /** Splitting loses nothing: joining the pieces back gives the string. */
  lemma {:induction false} SplitJoin(s: string, sep: char)
    ensures Join(Split(s, sep), sep) == s
    decreases |s|
  {
    if |s| > 0 {
      var rest := Split(s[1..], sep);
      SplitJoin(s[1..], sep);
      if s[0] == sep {
        assert ([""] + rest)[1..] == rest;
        assert s == [sep] + s[1..];
      } else {
        var parts := [[s[0]] + rest[0]] + rest[1..];
        if |rest| == 1 {
          assert Join(rest, sep) == rest[0];
        } else {
          assert parts[1..] == rest[1..];
          assert Join(rest, sep) == rest[0] + [sep] + Join(rest[1..], sep);
        }
        assert s == [s[0]] + s[1..];
      }
    }
  }

  /** The last piece of a split is a suffix of the string. */
  lemma {:induction false} LastPieceIsSuffix(s: string, sep: char)
    ensures var parts := Split(s, sep);
            var last := parts[|parts| - 1];
            |last| <= |s| && s[|s| - |last|..] == last
    decreases |s|
  {
    if |s| > 0 {
      var parts := Split(s, sep);
      var rest := Split(s[1..], sep);
      var tail := rest[|rest| - 1];
      LastPieceIsSuffix(s[1..], sep);
      if s[0] == sep || |rest| > 1 {
        // The last piece is the last piece of the tail's split.
        assert parts[|parts| - 1] == tail;
        assert s[|s| - |tail|..] == s[1..][|s| - 1 - |tail|..];
      } else {
        // One piece in the tail: the whole string is one piece.
        SplitWithoutSeparator(s[1..], sep);
        assert tail == s[1..];
        assert parts == [[s[0]] + tail];
        assert s == [s[0]] + s[1..];
      }
    }
  }

  /** `s.split('/').at(-1)`: the text after the last `/`, or all of `s`. */
  function LastSegment(s: string): (r: string)
    ensures '/' !in r
    ensures |r| <= |s| && s[|s| - |r|..] == r
    ensures '/' !in s ==> r == s
  {
    var parts := Split(s, '/');
    LastPieceIsSuffix(s, '/');
    assert '/' !in s ==> parts == [s] by {
      if '/' !in s { SplitWithoutSeparator(s, '/'); }
    }
    parts[|parts| - 1]
  }

  /** A string without the separator splits into itself. */
  lemma SplitWithoutSeparator(s: string, sep: char)
    requires sep !in s
    ensures Split(s, sep) == [s]
  {
    SplitJoin(s, sep);
  }

  /** The last piece of `a + sep + b` is `b` whenever `b` has no `sep`. */
  lemma {:induction false} LastPieceAfterSeparator(a: string, sep: char, b: string)
    requires sep !in b
    ensures var parts := Split(a + [sep] + b, sep); parts[|parts| - 1] == b
    decreases |a|
  {
    var s := a + [sep] + b;
    if |a| == 0 {
      assert s == [sep] + b && s[1..] == b;
      SplitWithoutSeparator(b, sep);
    } else {
      assert s[1..] == a[1..] + [sep] + b;
      LastPieceAfterSeparator(a[1..], sep, b);
      assert sep in s[1..] by { assert s[1..][|a| - 1] == sep; }
    }
  }

  /** Recovering a file name from a path: the last `/`-segment of
      `dir + "/" + name` is `name` when `name` has no `/`. */
  lemma LastSegmentOfPath(dir: string, name: string)
    requires '/' !in name
    ensures LastSegment(dir + "/" + name) == name
  {
    assert dir + "/" + name == dir + ['/'] + name;
    LastPieceAfterSeparator(dir, '/', name);
  }

  function DigitChar(d: nat): (c: char)
    requires d < 10
    ensures IsDigit(c)
  {
    ('0' as int + d) as char
  }

  /** `String(n)` for a non-negative integer: its decimal digits. */
  function Decimal(n: nat): (s: string)
    ensures |s| >= 1
    ensures forall i :: 0 <= i < |s| ==> IsDigit(s[i])
    // No leading zero: the only rendering that starts with `0` is "0".
    ensures s[0] == '0' <==> n == 0
  {
    if n < 10 then [DigitChar(n)] else Decimal(n / 10) + [DigitChar(n % 10)]
  }

  /** The value of a string of decimal digits. */
  function DecimalValue(s: string): nat
    requires forall i :: 0 <= i < |s| ==> IsDigit(s[i])
    decreases |s|
  {
    if |s| == 0 then 0
    else
      assert IsDigit(s[|s| - 1]);
      10 * DecimalValue(s[..|s| - 1]) + (s[|s| - 1] as int - '0' as int)
  }

  /** The rendering is faithful: reading the digits back gives `n`. */
  lemma {:induction false} DecimalRoundTrip(n: nat)
    ensures DecimalValue(Decimal(n)) == n
  {
    if n >= 10 {
      var s := Decimal(n);
      assert s[..|s| - 1] == Decimal(n / 10);
      DecimalRoundTrip(n / 10);
    }
  }
}

=== FILE: TokenStore.dfy ===
/** The `tokens` collection of refresh-token records and the four ways the
    controllers write it: `storeRefreshToken` inserts, login upserts by
    `_id`, refresh updates by `_id` without upsert, logout deletes one
    record by token. Records are kept in the collection's natural order. */
module TokenStore {
  import opened Wrappers
  import opened Seqs
  import opened Models
  import opened Errors
  import opened Jwt

  /** A document of the collection: its `_id`, the `token` string and the
      optional `userid` reference. */
  datatype TokenRecord = TokenRecord(key: Id, token: Credential, userid: Option<Id>)

  function RecordKey(r: TokenRecord): Id { r.key }

  /** `_id` is unique within the collection. */
  ghost predicate UniqueKeys(ts: seq<TokenRecord>)
  {
    Injective(ts, RecordKey)
  }

  predicate HasKey(ts: seq<TokenRecord>, k: Id)
  {
    exists i :: 0 <= i < |ts| && ts[i].key == k
  }

  predicate HasToken(ts: seq<TokenRecord>, token: Credential)
  {
    exists i :: 0 <= i < |ts| && ts[i].token == token
  }

  /** `ts` holds exactly one record with `_id` `k`, and it carries `token`. */
  ghost predicate SoleRecordFor(ts: seq<TokenRecord>, k: Id, token: Credential)
  {
    exists i :: 0 <= i < |ts| && ts[i].key == k && ts[i].token == token
                && forall j :: 0 <= j < |ts| && j != i ==> ts[j].key != k
  }

  /** Rewriting fields other than `_id` keeps `_id`s unique. */
  lemma SameKeysStayUnique(ts: seq<TokenRecord>, r: seq<TokenRecord>)
    requires |r| == |ts| && UniqueKeys(ts)
    requires forall j :: 0 <= j < |ts| ==> r[j].key == ts[j].key
    ensures UniqueKeys(r)
  {
    forall a, b | 0 <= a < b < |r|
      ensures RecordKey(r[a]) != RecordKey(r[b])
    {
      assert RecordKey(ts[a]) != RecordKey(ts[b]);
    }
  }

  /** Appending a record with a new `_id` keeps `_id`s unique. */
  lemma AppendFreshKeyStaysUnique(ts: seq<TokenRecord>, rec: TokenRecord)
    requires UniqueKeys(ts) && !HasKey(ts, rec.key)
    ensures UniqueKeys(ts + [rec])
  {
    var r := ts + [rec];
    forall a, b | 0 <= a < b < |r|
      ensures RecordKey(r[a]) != RecordKey(r[b])
    {
      if b < |ts| {
        assert RecordKey(ts[a]) != RecordKey(ts[b]);
      } else {
        assert r[a] == ts[a];
      }
    }
  }

  /** `JWTService.storeRefreshToken(token, userid)`: saves a new record
      `{ token, userid }` under the fresh `_id` `key`. A save failure (the
      injected `fault`, or an `_id` already present) is rethrown unchanged. */
  function StoreRefreshToken(ts: seq<TokenRecord>, token: Credential, userid: Id, key: Id,
                             fault: Option<ErrorDesc>): (r: Result<seq<TokenRecord>, ErrorDesc>)
    ensures fault.Some? ==> r == Err(fault.value)
    ensures fault.None? && HasKey(ts, key) ==> r == Err(DuplicateKey)
    ensures r.Ok? <==> fault.None? && !HasKey(ts, key)
    ensures r.Ok? ==> |r.value| == |ts| + 1 && r.value[..|ts|] == ts
                      && r.value[|ts|] == TokenRecord(key, token, Some(userid))
    ensures r.Ok? && UniqueKeys(ts) ==> UniqueKeys(r.value)
  {
    if fault.Some? then Err(fault.value)
    else if HasKey(ts, key) then Err(DuplicateKey)
    else
      var rec := TokenRecord(key, token, Some(userid));
      assert UniqueKeys(ts) ==> UniqueKeys(ts + [rec]) by {
        if UniqueKeys(ts) { AppendFreshKeyStaysUnique(ts, rec); }
      }
      assert (ts + [rec])[..|ts|] == ts;
      Ok(ts + [rec])
  }

  /** `updateOne({ _id: k }, { token }, { upsert: true })`: the record with
      `_id` `k` gets the token; without one, a record `{ _id: k, token }`
      (no `userid`) is inserted. No other record changes. */
  function Upsert(ts: seq<TokenRecord>, k: Id, token: Credential): (r: seq<TokenRecord>)
    ensures HasKey(ts, k) ==> |r| == |ts|
    ensures exists i :: 0 <= i < |r| && r[i].key == k && r[i].token == token
    ensures !HasKey(ts, k) ==> r == ts + [TokenRecord(k, token, None)]
    ensures forall j :: 0 <= j < |ts| && ts[j].key != k ==> r[j] == ts[j]
    ensures UniqueKeys(ts) ==> UniqueKeys(r) && SoleRecordFor(r, k, token)
    ensures UniqueKeys(ts) ==> forall j :: 0 <= j < |ts| && ts[j].key == k ==> r[j] == ts[j].(token := token)
  {
    match FirstIndex(ts, (x: TokenRecord) => x.key == k)
    case None =>
      var rec := TokenRecord(k, token, None);
      assert (ts + [rec])[|ts|] == rec;
      assert UniqueKeys(ts) ==> UniqueKeys(ts + [rec]) && SoleRecordFor(ts + [rec], k, token) by {
        if UniqueKeys(ts) {
          AppendFreshKeyStaysUnique(ts, rec);
          assert (ts + [rec])[|ts|] == rec;
        }
      }
      ts + [rec]
    case Some(i) =>
      var r := ts[i := ts[i].(token := token)];
      assert r[i].key == k && r[i].token == token;
      assert UniqueKeys(ts) ==> UniqueKeys(r) && SoleRecordFor(r, k, token) by {
        if UniqueKeys(ts) {
          SameKeysStayUnique(ts, r);
          forall j | 0 <= j < |r| && j != i
            ensures r[j].key != k
          {
            if j < i { assert RecordKey(ts[j]) != RecordKey(ts[i]); }
            else { assert RecordKey(ts[i]) != RecordKey(ts[j]); }
          }
        }
      }
      assert UniqueKeys(ts) ==> forall j :: 0 <= j < |ts| && ts[j].key == k ==> j == i by {
        if UniqueKeys(ts) {
          forall j | 0 <= j < |ts| && ts[j].key == k
            ensures j == i
          {
          }
        }
      }
      r
  }

  function RecordToken(r: TokenRecord): Credential { r.token }

  /** `updateOne({ _id: k }, { token })` without upsert: the record the
      filter matches, if any, gets the token; nothing is ever inserted. An
      undefined `k` matches as `u` says: nothing, or the first record. */
  function UpdateByKey(ts: seq<TokenRecord>, k: Option<Id>, token: Credential, u: UndefinedMatch): (r: seq<TokenRecord>)
    ensures |r| == |ts|
    ensures forall j :: 0 <= j < |ts| ==> r[j].key == ts[j].key && r[j].userid == ts[j].userid
    ensures forall j :: 0 <= j < |ts| && r[j] != ts[j] ==>
      r[j].token == token && (k == Some(ts[j].key) || (k.None? && u == MatchAll && j == 0))
    ensures (k.None? && u == MatchNone) || (k.Some? && !HasKey(ts, k.value)) ==> r == ts
    ensures k.Some? && HasKey(ts, k.value) ==>
      exists i :: 0 <= i < |r| && r[i].key == k.value && r[i].token == token
    ensures k.None? && u == MatchAll && |ts| > 0 ==> r == ts[0 := ts[0].(token := token)]
    ensures UniqueKeys(ts) ==> UniqueKeys(r)
  {
    match FirstMatch(ts, k, RecordKey, u)
    case None => ts
    case Some(i) =>
      var r := ts[i := ts[i].(token := token)];
      assert UniqueKeys(ts) ==> UniqueKeys(r) by {
        if UniqueKeys(ts) { SameKeysStayUnique(ts, r); }
      }
      r
  }

  /** `deleteOne({ token })`: removes the first record carrying the token,
      if any. An undefined token matches as `u` says: nothing, or the first
      record. */
  function DeleteOneByToken(ts: seq<TokenRecord>, token: Option<Credential>, u: UndefinedMatch): (r: seq<TokenRecord>)
    ensures (token.None? && u == MatchNone) || (token.Some? && !HasToken(ts, token.value)) ==> r == ts
    ensures token.Some? && HasToken(ts, token.value) ==>
      exists i :: 0 <= i < |ts| && ts[i].token == token.value
                  && (forall j :: 0 <= j < i ==> ts[j].token != token.value)
                  && r == RemoveAt(ts, i)
    ensures token.None? && u == MatchAll && |ts| > 0 ==> r == RemoveAt(ts, 0)
    // Whatever goes is one record the filter selects.
    ensures r != ts ==>
      exists i :: 0 <= i < |ts| && r == RemoveAt(ts, i)
                  && (Some(ts[i].token) == token || (token.None? && u.MatchAll? && i == 0))
    ensures |ts| - 1 <= |r| <= |ts|
    ensures UniqueKeys(ts) ==> UniqueKeys(r)
  {
    match FirstMatch(ts, token, RecordToken, u)
    case None => ts
    case Some(i) =>
      assert UniqueKeys(ts) ==> UniqueKeys(RemoveAt(ts, i)) by {
        if UniqueKeys(ts) { RemoveAtInjective(ts, i, RecordKey); }
      }
      RemoveAt(ts, i)
  }
}

=== FILE: UserDto.dfy ===
/** The user projection sent to clients and attached to authenticated
    requests. */
module UserDto {
  import opened Models

  /** Exactly three fields; no email, no password hash. */
  datatype UserDTO = UserDTO(id: Id, username: string, name: string)

  function FromUser(u: User): (d: UserDTO)
    ensures d.id == u.id && d.username == u.username && d.name == u.name
  {
    UserDTO(u.id, u.username, u.name)
  }

  /** The DTO reveals nothing else: two users agree on their DTOs exactly when
      they agree on id, username and name, whatever their emails and password
      hashes. */
  lemma DtoDeterminedByPublicFields(u: User, v: User)
    ensures FromUser(u) == FromUser(v) <==> u.id == v.id && u.username == v.username && u.name == v.name
  {
  }
}

=== FILE: Validators.dfy ===
/** The request-body schemas of the controllers and the two regular
    expressions they use: the password pattern and the ObjectId pattern.
    A schema reports the first key that fails, in schema order, as Joi does
    when it stops at the first error. */
module Validators {
  import opened Wrappers
  import opened Text
  import opened Models

  datatype CharClass = Digit | Lower | Upper

  predicate InClass(c: char, k: CharClass)
  {
    match k
    case Digit => IsDigit(c)
    case Lower => IsLower(c)
    case Upper => IsUpper(c)
  }

  /** The lookahead `(?=.*k)` at the start of `s`: `.*` (any characters but
      line terminators), backtracking until a character of class `k` follows. */
  predicate LookaheadMatches(s: string, k: CharClass)
    decreases |s|
  {
    |s| > 0 && (InClass(s[0], k) || (!IsLineTerminator(s[0]) && LookaheadMatches(s[1..], k)))
  }

  /** `/^(?=.*\d)(?=.*[a-z])(?=.*[A-Z])[a-zA-Z0-9]{8,30}$/` read as written:
      three lookaheads from the start, then 8 to 30 UTF-16 code units of
      `[a-zA-Z0-9]` running to the end of the input. */
  function PasswordPattern(s: string): (r: bool)
    ensures r ==> 8 <= |s| <= 30 && forall i :: 0 <= i < |s| ==> IsAlnum(s[i])
  {
    && LookaheadMatches(s, Digit)
    && LookaheadMatches(s, Lower)
    && LookaheadMatches(s, Upper)
    && 8 <= Utf16Length(s) <= 30
    && forall i :: 0 <= i < |s| ==> IsAlnum(s[i])
  }

  predicate HasClass(s: string, k: CharClass)
  {
    exists i :: 0 <= i < |s| && InClass(s[i], k)
  }

  /** The rule the pattern is meant to enforce: 8 to 30 ASCII letters and
      digits with at least one digit, one lower-case and one upper-case letter. */
  predicate PasswordRule(s: string)
  {
    && 8 <= |s| <= 30
    && (forall i :: 0 <= i < |s| ==> IsAlnum(s[i]))
    && HasClass(s, Digit)
    && HasClass(s, Lower)
    && HasClass(s, Upper)
  }

  /** On letters and digits a lookahead is just "some character of the class". */
  lemma {:induction false} LookaheadOnAlnum(s: string, k: CharClass)
    requires forall i :: 0 <= i < |s| ==> IsAlnum(s[i])
    ensures LookaheadMatches(s, k) <==> HasClass(s, k)
    decreases |s|
  {
    if |s| > 0 {
      LookaheadOnAlnum(s[1..], k);
      if HasClass(s, k) && !InClass(s[0], k) {
        var i :| 0 <= i < |s| && InClass(s[i], k);
        assert InClass(s[1..][i - 1], k);
      }
      if HasClass(s[1..], k) {
        var i :| 0 <= i < |s[1..]| && InClass(s[1..][i], k);
        assert InClass(s[i + 1], k);
      }
    }
  }

  /** The password pattern accepts exactly the strings the rule describes. */
  lemma PasswordPatternMeaning(s: string)
    ensures PasswordPattern(s) <==> PasswordRule(s)
  {
    if forall i :: 0 <= i < |s| ==> IsAlnum(s[i]) {
      LookaheadOnAlnum(s, Digit);
      LookaheadOnAlnum(s, Lower);
      LookaheadOnAlnum(s, Upper);
      assert Utf16Length(s) == |s|;
    }
  }

  /** `/^[0-9a-fA-F]{24}$/`: exactly 24 hexadecimal digits (JavaScript's `$`
      without the `m` flag matches only at the end of the input). */
  function IsObjectId(s: string): (r: bool)
    ensures r ==> Utf16Length(s) == 24 && '/' !in s
  {
    |s| == 24 && forall i :: 0 <= i < |s| ==> IsHexDigit(s[i])
  }

  /** The value of a hexadecimal digit, in either case. */
  function HexValue(c: char): (v: nat)
    requires IsHexDigit(c)
    ensures v < 16
  {
    if IsDigit(c) then c as int - '0' as int
    else if 'a' <= c <= 'f' then c as int - 'a' as int + 10
    else c as int - 'A' as int + 10
  }

  /** The lower-case hexadecimal digit of a value below 16. */
  function HexDigit(v: nat): (c: char)
    requires v < 16
    ensures IsHexDigit(c) && HexValue(c) == v && !IsUpper(c)
  {
    if v < 10 then ('0' as int + v) as char else ('a' as int + v - 10) as char
  }

  /** The hexadecimal rendering of an ObjectId's bytes, as the driver's
      `toHexString` writes it: two lower-case digits per byte. */
  function HexOf(bytes: seq<nat>): (s: string)
    requires forall i :: 0 <= i < |bytes| ==> bytes[i] < 256
    ensures |s| == 2 * |bytes|
    ensures forall i :: 0 <= i < |s| ==> IsHexDigit(s[i]) && !IsUpper(s[i])
    decreases |bytes|
  {
    if |bytes| == 0 then ""
    else [HexDigit(bytes[0] / 16), HexDigit(bytes[0] % 16)] + HexOf(bytes[1..])
  }

  /** Reading a string of hexadecimal digit pairs back as bytes. */
  function BytesOf(s: string): (bytes: seq<nat>)
    requires |s| % 2 == 0 && forall i :: 0 <= i < |s| ==> IsHexDigit(s[i])
    ensures |bytes| == |s| / 2
    ensures forall i :: 0 <= i < |bytes| ==> bytes[i] < 256
    decreases |s|
  {
    if |s| == 0 then []
    else [16 * HexValue(s[0]) + HexValue(s[1])] + BytesOf(s[2..])
  }

  lemma {:induction false} HexRoundTrip(bytes: seq<nat>)
    requires forall i :: 0 <= i < |bytes| ==> bytes[i] < 256
    ensures BytesOf(HexOf(bytes)) == bytes
    decreases |bytes|
  {
    if |bytes| > 0 {
      var h := HexOf(bytes);
      assert h[2..] == HexOf(bytes[1..]);
      HexRoundTrip(bytes[1..]);
      assert bytes == [bytes[0]] + bytes[1..];
    }
  }

  /** Rendering a digit's value gives the digit, lower-cased. */
  lemma HexDigitOfValue(c: char)
    requires IsHexDigit(c)
    ensures HexDigit(HexValue(c)) == ToLower(c)
  {
  }

  /** A byte built from two digit values splits back into them. */
  lemma PairValue(hi: nat, lo: nat)
    requires hi < 16 && lo < 16
    ensures (16 * hi + lo) / 16 == hi && (16 * hi + lo) % 16 == lo
  {
  }

  lemma {:induction false} HexCanonical(s: string)
    requires |s| % 2 == 0 && forall i :: 0 <= i < |s| ==> IsHexDigit(s[i])
    ensures HexOf(BytesOf(s)) == LowerCase(s)
    decreases |s|
  {
    if |s| > 0 {
      var b := BytesOf(s);
      var tail := s[2..];
      assert b == [16 * HexValue(s[0]) + HexValue(s[1])] + BytesOf(tail);
      assert b[1..] == BytesOf(tail);
      HexCanonical(tail);
      PairValue(HexValue(s[0]), HexValue(s[1]));
      HexDigitOfValue(s[0]);
      HexDigitOfValue(s[1]);
      assert HexOf(b) == [ToLower(s[0]), ToLower(s[1])] + LowerCase(tail);
      assert LowerCase(s) == [ToLower(s[0]), ToLower(s[1])] + LowerCase(tail);
    }
  }

  /** The ObjectId pattern accepts the rendering of every 12-byte id, which
      reads back as the same bytes ... */
  lemma RenderedIdsAccepted(bytes: seq<nat>)
    requires |bytes| == 12 && forall i :: 0 <= i < |bytes| ==> bytes[i] < 256
    ensures IsObjectId(HexOf(bytes)) && BytesOf(HexOf(bytes)) == bytes
  {
    HexRoundTrip(bytes);
  }

  /** ... and every string it accepts is such a rendering, up to the case of
      its letters. */
  lemma AcceptedIdsAreRenderings(s: string)
    requires IsObjectId(s)
    ensures |BytesOf(s)| == 12 && HexOf(BytesOf(s)) == LowerCase(s)
  {
    HexCanonical(s);
  }

  /** A rendering has no upper-case letter, so lower-casing keeps it. */
  lemma RenderingIsLowerCase(bytes: seq<nat>)
    requires forall i :: 0 <= i < |bytes| ==> bytes[i] < 256
    ensures LowerCase(HexOf(bytes)) == HexOf(bytes)
  {
  }

  /** Matching ids with `SameId` is equality of ObjectIds: a string the
      pattern accepts names a stored id exactly when it reads as the stored
      id's bytes, whatever the case of its letters. */
  lemma SameIdIsObjectIdEquality(bytes: seq<nat>, query: string)
    requires |bytes| == 12 && forall i :: 0 <= i < |bytes| ==> bytes[i] < 256
    requires IsObjectId(query)
    ensures SameId(HexOf(bytes), query) <==> BytesOf(query) == bytes
  {
    RenderingIsLowerCase(bytes);
    AcceptedIdsAreRenderings(query);
    HexRoundTrip(bytes);
    HexRoundTrip(BytesOf(query));
  }

  /** A character whose lower-cased form is a hexadecimal digit is one. */
  lemma LowerHexDigit(c: char)
    requires IsHexDigit(ToLower(c))
    ensures IsHexDigit(c)
  {
  }

  /** The pattern accepts exactly the strings that lower-case to the
      rendering of some 12-byte id: the ObjectIds, in any letter case. */
  lemma ObjectIdsUpToCase(s: string)
    ensures IsObjectId(s) <==>
      exists bytes: seq<nat> :: |bytes| == 12 && (forall i :: 0 <= i < |bytes| ==> bytes[i] < 256)
                                && HexOf(bytes) == LowerCase(s)
  {
    if IsObjectId(s) {
      AcceptedIdsAreRenderings(s);
      var bytes := BytesOf(s);
      assert |bytes| == 12 && HexOf(bytes) == LowerCase(s);
    }
    if exists bytes: seq<nat> :: |bytes| == 12 && (forall i :: 0 <= i < |bytes| ==> bytes[i] < 256)
                                 && HexOf(bytes) == LowerCase(s) {
      var bytes: seq<nat> :| |bytes| == 12 && (forall i :: 0 <= i < |bytes| ==> bytes[i] < 256)
                             && HexOf(bytes) == LowerCase(s);
      forall i | 0 <= i < |s|
        ensures IsHexDigit(s[i])
      {
        assert LowerCase(s)[i] == ToLower(s[i]);
        LowerHexDigit(s[i]);
      }
    }
  }

  /** `Joi.string().required()`: present, and not the empty string. */
  predicate RequiredString(f: Option<string>)
  {
    f.Some? && f.value != ""
  }

  /** `Joi.string().min(5).max(30).required()`, lengths in code units. */
  predicate UsernameValid(f: Option<string>)
  {
    RequiredString(f) && 5 <= Utf16Length(f.value) <= 30
  }

  /** `Joi.string().max(30).required()`. */
  predicate NameValid(f: Option<string>)
  {
    RequiredString(f) && Utf16Length(f.value) <= 30
  }

  /** `Joi.string().email().required()`; Joi's address grammar is the
      parameter `isEmail`. */
  predicate EmailValid(f: Option<string>, isEmail: string -> bool)
  {
    RequiredString(f) && isEmail(f.value)
  }

  /** `Joi.string().pattern(passwordPattern).required()`. */
  predicate PasswordValid(f: Option<string>)
  {
    RequiredString(f) && PasswordPattern(f.value)
  }

  /** `Joi.string().regex(mongodbIDPattern).required()`. */
  predicate ObjectIdValid(f: Option<string>)
  {
    RequiredString(f) && IsObjectId(f.value)
  }

  /** `Joi.ref('password')`: optional, but when given equal to the password. */
  predicate ConfirmationValid(confirm: Option<string>, password: Option<string>)
  {
    confirm.None? || confirm == password
  }

  /** `Joi.string()` without `required`: absent, or a non-empty string. */
  predicate OptionalString(f: Option<string>)
  {
    f.None? || f.value != ""
  }

  /** The registration schema: the first failing key, or `None`. */
  function RegisterSchemaError(username: Option<string>, name: Option<string>, email: Option<string>,
                               password: Option<string>, confirm: Option<string>,
                               isEmail: string -> bool): (r: Option<string>)
    ensures r.None? <==>
      UsernameValid(username) && NameValid(name) && EmailValid(email, isEmail)
      && PasswordValid(password) && ConfirmationValid(confirm, password)
    ensures r.Some? ==> r.value in {"username", "name", "email", "password", "confirmPassword"}
    ensures r == Some("username") <==> !UsernameValid(username)
    ensures r == Some("name") <==> UsernameValid(username) && !NameValid(name)
    ensures r == Some("email") <==> UsernameValid(username) && NameValid(name) && !EmailValid(email, isEmail)
    ensures r == Some("password") <==>
      UsernameValid(username) && NameValid(name) && EmailValid(email, isEmail) && !PasswordValid(password)
    ensures r == Some("confirmPassword") <==>
      UsernameValid(username) && NameValid(name) && EmailValid(email, isEmail) && PasswordValid(password)
      && !ConfirmationValid(confirm, password)
  {
    if !UsernameValid(username) then Some("username")
    else if !NameValid(name) then Some("name")
    else if !EmailValid(email, isEmail) then Some("email")
    else if !PasswordValid(password) then Some("password")
    else if !ConfirmationValid(confirm, password) then Some("confirmPassword")
    else None
  }

  /** The login schema: the first failing key, or `None`. */
  function LoginSchemaError(username: Option<string>, password: Option<string>): (r: Option<string>)
    ensures r.None? <==> UsernameValid(username) && PasswordValid(password)
    ensures r.Some? ==> r.value in {"username", "password"}
    ensures r == Some("username") <==> !UsernameValid(username)
    ensures r == Some("password") <==> UsernameValid(username) && !PasswordValid(password)
  {
    if !UsernameValid(username) then Some("username")
    else if !PasswordValid(password) then Some("password")
    else None
  }

  /** Every registration the schema accepts also passes the login schema with
      the same username and password. */
  lemma RegisteredCredentialsPassLogin(username: Option<string>, name: Option<string>, email: Option<string>,
                                       password: Option<string>, confirm: Option<string>,
                                       isEmail: string -> bool)
    requires RegisterSchemaError(username, name, email, password, confirm, isEmail).None?
    ensures LoginSchemaError(username, password).None?
  {
  }
}

=== FILE: Wrappers.dfy ===
/** Optional values and results. `None` stands for JavaScript's `undefined`
    or `null`; `Err` for an error a call throws or rejects with. */
module Wrappers {

  datatype Option<+T> = None | Some(value: T)

  datatype Result<+T, +E> = Ok(value: T) | Err(error: E)
}
